=== FILE: README.md ===
# pdfFlip document library, modelled in Dafny

pdfFlip shows a PDF library kept in a Google Drive folder tree. This project models and proves
its core, in five modules that follow the repository's files, plus a worked scenario:

- **`Drive`** (`drive.dfy`, lib/drive.ts) is the recursive lister. It walks the folder tree
  breadth-first and follows every folder's paginated listing. Each PDF gets a folder path,
  rebuilt from a map of parent links. The sorted result is kept in a one-slot cache with a
  ten-minute lifetime. It also filters and pages that list for the grid.
- **`DriveBrowser`** (`drive_browser.dfy`, lib/drive-browser.ts) is the one-folder lister
  behind the interactive browser. It checks its inputs, builds the query with an escaped name
  search, and returns the folders first, with each group in name order.
- **`PdfGrid`** (`pdf_grid.dfy`, components/pdf-grid.tsx) covers paging in the grid:
  - the page count;
  - Prev/Next clamping;
  - the reset to page 1 on a new search;
  - the request parameters;
  - the row of page buttons, with "..." where pages are skipped.
- **`FolderBrowser`** (`folder_browser.dfy`, components/folder-browser.tsx) covers the
  breadcrumb trail, the stack of page tokens behind Previous/Next, the request key, and when
  the pager shows and which buttons are disabled.
- **`PdfViewer`** (`pdf_viewer.dfy`, components/pdf-viewer.tsx) covers rewriting a Google
  Drive link into its embeddable `/preview` form, and the viewer's five file-type flags.
- **`DriveScenario`** (`drive_scenario.dfy`) works a small concrete folder tree through the
  whole recursive listing.

`Wrappers` (Option, Result), `Strings` (the JavaScript string built-ins the core uses) and
`Sorting` (a sort by any total preorder, with a permutation guarantee) are shared helpers.

Modelling choices:

- **The network.** The backend is a function from requests to responses: a page of records,
  or a failure with status and body. Every thrown error is a `Result` error.
- **The environment.** The API key is a parameter, and the empty string counts as missing.
- **The clock.** `Date.now()` becomes two parameters: `now`, read before the cache check, and
  `doneAt`, read when the cache is written.
- **Termination.** A walk over a backend that keeps reporting new folders or new pages would
  not end. A `fuel` parameter bounds the folders listed and the pages per folder. Running out
  is the error `OutOfFuel`.
- **Name order.** `localeCompare` is replaced by lexicographic order on character codes
  (`Sorting.NameLe`). It is proved to be a total preorder.
- **Case.** `toLowerCase` is modelled on ASCII letters only.
- **Trimming.** `trim` removes exactly the ECMAScript white-space and line-terminator code
  points.
- **Fetch order.** The source processes each page of a folder's listing before asking for the
  next one. The model fetches all pages of a folder first and then processes their records in
  order. The folder map and outputs are the same, because processing a record never affects
  which page is requested next.

## Model

| member | source | states |
|---|---|---|
| Drive.DriveList | lib/drive.ts:36-60 | A missing API key fails before any request; an ok response yields its page, and any other yields an upstream error with its status and body. |
| Drive.FetchFolder | lib/drive.ts:80-109 | A folder's listing needs the key. The pages returned are a complete chain of the backend's answers: the first asked for with the given token, each next one with the previous page's non-empty next token, all ok, and only the last without a next token. A failure is the missing key, running out of fuel, or an upstream error whose status and body the backend gave for some request along such a chain. |
| Drive.FetchFolderComplete | lib/drive.ts:84-108 | Conversely, when the backend serves a complete chain of pages and the fuel covers its length, the listing returns exactly those pages. |
| Drive.FetchFolderFails | lib/drive.ts:55-57 | When the backend answers ok along a chain and then not ok, the listing fails with exactly that status and body. |
| Drive.AncestorIds | lib/drive.ts:111-121 | The chain `buildPath` climbs: it starts at the given id, each next id is the previous one's parent, and every id is in the map with a parent. It is empty exactly when the id is empty, missing, or the root, and it stops only where the source's loop stops. |
| Drive.BuildPath | lib/drive.ts:111-123 | No id, an empty id, an id missing from the map, or the root gives the empty path. |
| Drive.BuildPathNested | lib/drive.ts:111-123 | Root → A → B gives "A/B" for B, "A" for A and "" for the root: names run root first and the root's name is left out. |
| Drive.BuildPathStopsAtMissingParent | lib/drive.ts:115-121 | A parent missing from the map ends the path there without an error. |
| Drive.BuildPathStep | lib/drive.ts:111-122 | For a folder whose parent chain does not lead back to it, the path is the parent's path, "/", and the folder's name, or just the name when the parent is the root, empty or missing from the map. |
| Drive.StartWalkInv | lib/drive.ts:73-78 | The initial walk state, with the root queued and mapped as "Root", satisfies the walk invariant. |
| Drive.FolderIdsAreFolderRecords | lib/drive.ts:87-93 | The ids queued for a run of records are exactly the ids of its folder records. |
| Drive.FoldersOf | lib/drive.ts:75-92 | The folder map a run of records builds holds the root and exactly the ids of the folder records. |
| Drive.ItemsOf | lib/drive.ts:94-105 | A run of records yields one item per PDF record, in order, each carrying that record's id, name, thumbnail, time, and size unless it was empty. |
| Drive.ProcessFile | lib/drive.ts:86-106 | Handling one record appends it to the records seen, never removes a collected PDF, and keeps the walk invariant: the visited folders and the queue are the root and then every folder record's id, the folder map is the one those records build, and the collected items are their PDFs, each with the path its first parent had in the map when it was met. |
| Drive.RegisterFolder | lib/drive.ts:87-93 | A folder record is queued, and its id is mapped to its name and first parent; every other entry is kept; the walk invariant is kept. |
| Drive.CollectPdf | lib/drive.ts:94-105 | A PDF record becomes one item at the end of the collected list, carrying its fields and the path its first parent has in the current map; queue and map are unchanged; the walk invariant is kept. |
| Drive.CollectPreserves | lib/drive.ts:94-105 | Collecting a PDF record with the path of its first parent in the current map keeps the collected items equal to those the records seen yield. |
| Drive.SkipFile | lib/drive.ts:86-106 | A record that is neither folder nor PDF changes nothing but the records seen. |
| Drive.ProcessFiles | lib/drive.ts:86-106 | Handling a page's records in order extends the records seen by exactly those records, keeps earlier PDFs, and keeps the walk invariant. |
| Drive.RunQueue | lib/drive.ts:125-128 | On success the queue is empty, the invariant holds, and every folder listed was listed in full from the backend, the records seen being those listings in order; earlier records and results are kept; an empty queue returns the state unchanged; a failed listing of the head folder aborts with its error; any failure is a missing key, out of fuel, or an upstream answer from the backend. |
| Drive.RunQueueStep | lib/drive.ts:125-128 | One round lists the head folder in full, moves it to the visited folders, and handles its records before the rest of the queue. |
| Drive.FailedListingAbortsWalk | lib/drive.ts:55-57 | A not-ok answer while listing the head folder aborts the walk with that status and body. |
| Drive.Walk | lib/drive.ts:73-128 | With no key the walk fails. On success the folders listed are the root followed by every folder record seen, in discovery order; each was listed in full from the backend and the records seen are those listings; the map is the one those records build; and the collected PDFs are the items they yield, with their paths. A failure is a missing key, out of fuel, or an upstream answer. |
| Drive.ItemLeIsTotalPreorder | lib/drive.ts:132 | Ordering items by name is a total preorder, so sorting by it is well defined. |
| Drive.ListAllPdfsRecursively | lib/drive.ts:62-137 | A cache hit returns the cached list without walking. A miss with no key fails. A failure leaves the cache as it was. A successful miss stores the root, the time the walk finished, and a list sorted by name that is a permutation of the walk's PDFs. A miss succeeds exactly when the walk does, and otherwise fails with the walk's error, leaving the cache as it was. The answer is always the cache's list. |
| Drive.RepeatWithinTtlIsServedFromCache | lib/drive.ts:62-71 | A second call for the same root within ten minutes of a non-empty result returns that result and cache unchanged, whatever the backend, key or fuel. |
| Drive.MissIsColdStart | lib/drive.ts:65-69 | An empty, expired or other-root cache behaves exactly like the empty cache at start-up. |
| Drive.OtherRootIsNotServed | lib/drive.ts:65-69 | A cache filled for one root never answers for another. |
| Drive.FilterItems | lib/drive.ts:141-143 | An item is kept exactly when its lower-cased name or non-empty lower-cased path contains the query, and nothing else is added. |
| Drive.FilterItemsAppend | lib/drive.ts:141-143 | Filtering distributes over concatenation. |
| Drive.SliceIndex | lib/drive.ts:151 | `slice` index normalisation: negative indices count from the end, and results are clamped to the length. |
| Drive.Window | lib/drive.ts:145-151 | For every start and size, the elements between the two ends as `slice` reads them: its length is the gap between the normalised ends (0 when the end is not after the start) and its k-th element is the list's element at the normalised start plus k. At most `size` elements, all from the list. |
| Drive.WindowFromEnd | lib/drive.ts:145-151 | A window ending at or before position 0 counts from the end of the list: empty when it ends exactly at 0 or before the first element, otherwise the run ending that many items before the end, cut off at the front. |
| Drive.WindowNegativeSize | lib/drive.ts:145-151 | A negative size from position 0 drops that many items from the end; from a negative start, or a start at least as large as the size is negative, the window is empty. |
| Drive.FilterAndPaginate | lib/drive.ts:139-153 | `total` counts the kept items (all of them for a blank query); `items` is page `page` of them, 1-based, at most `pageSize` long, and empty past the end. |
| Drive.PageBeforeFirst | lib/drive.ts:139-153 | Pages 0 and below are not empty in general: page 0 is empty, and a negative page reads the kept items from the end, one block of `pageSize` per page, cut off at the front and empty once it runs off it. |
| Drive.NegativePageSize | lib/drive.ts:139-153 | With a negative page size, page 1 is the kept items without that many at the end, and every other page is empty. |
| Drive.NormalizeQueryIdempotent | lib/drive.ts:140 | Normalising a normalised query changes nothing. |
| Drive.SameQuerySamePage | lib/drive.ts:139-153 | Two queries that normalise alike give the same page result. |
| Drive.SearchIgnoresQueryCase | lib/drive.ts:140-142 | A query and its lower-cased form give the same page. |
| Drive.SearchIgnoresPadding | lib/drive.ts:140-142 | A query and its trimmed form give the same page. |
| Strings.Includes | lib/drive.ts:142 | `includes` holds exactly when the needle occurs at some position. |
| Strings.Trim | lib/drive.ts:140 | The result is the infix left after dropping white space at both ends; it neither starts nor ends with white space; it is empty exactly when the input is all white space. |
| Strings.TrimLower | lib/drive.ts:140 | Trimming and lower-casing commute. |
| Strings.ToLowerIdempotent | lib/drive.ts:140 | Lower-casing twice is lower-casing once. |
| Sorting.SortBy | lib/drive.ts:132 | The result is sorted by the comparator and is a permutation of the input. |
| Sorting.NameLeTransitive | lib/drive-browser.ts:54 | Name order is transitive, which the sort relies on; it is also total and antisymmetric. |
| DriveBrowser.EscapeSingleQuotes | lib/drive-browser.ts:65-67 | The result is one character longer per quote; every quote in it has a backslash before it; it never starts with a quote. |
| DriveBrowser.UnescapeEscape | lib/drive-browser.ts:65-67 | Deleting the inserted backslashes gives back the term, so escaping loses nothing. |
| DriveBrowser.BrowseQuery | lib/drive-browser.ts:28-32 | The query always starts with the parent/not-trashed/type clause, and it is exactly that clause when no search term is given; with a term it is that clause followed by the name clause holding the escaped term between quotes. |
| DriveBrowser.EscapeQuoteFree | lib/drive-browser.ts:65-67 | A term without quotes is left exactly as it is. |
| DriveBrowser.OBrienQuery | lib/drive-browser.ts:28-32 | The term `O'Brien` reaches the query as `name contains 'O\'Brien'`, its quote escaped. |
| DriveBrowser.SearchTermRoundTrip | lib/drive-browser.ts:28-32 | The term read back out of the query is the search term given (quotes included), or none when there is no term. |
| DriveBrowser.PrepareRequest | lib/drive-browser.ts:16-41 | An empty folder id fails first, then a missing key. Otherwise the request carries the query, the key, the all-drives flags and the page size (default 30), and a page token exactly when a non-empty one was given. |
| DriveBrowser.PreparedQueryCarriesSearch | lib/drive-browser.ts:28-32 | The search term a prepared request was built from is read back out of its query. |
| DriveBrowser.FolderFirstLeIsTotalPreorder | lib/drive-browser.ts:50-55 | The comparator (folders first, then by name) is a total preorder. |
| DriveBrowser.MarkAllCount | lib/drive-browser.ts:57-60 | Each listing entry occurs as often as the item it was made from when its folder flag agrees with its type, and never otherwise. |
| DriveBrowser.MarkAllPermutation | lib/drive-browser.ts:50-60 | Marking two rearrangements of the same items gives rearrangements of each other. |
| DriveBrowser.ProcessResponse | lib/drive-browser.ts:44-62 | A failed response is an upstream error. Otherwise the entries are the marked files rearranged, every flag matches its type, folders come before files, names ascend within each group, and the token is passed through. |
| DriveBrowser.ListDriveChildren | lib/drive-browser.ts:16-63 | The checks fail as in `PrepareRequest`, before any request; otherwise the backend's answer is processed as in `ProcessResponse`. |
| PdfGrid.TotalPages | components/pdf-grid.tsx:55-56 | At least one page, enough pages for all items, and no page more than needed. |
| PdfGrid.PrevNextStayInRange | components/pdf-grid.tsx:123-124 | Prev and Next keep the page within `[1, totalPages]` and undo each other away from the ends. |
| PdfGrid.Debounce | components/pdf-grid.tsx:36-53 | The debounced search catches up with the box, and the page returns to 1 exactly when the search changed. |
| PdfGrid.Clear | components/pdf-grid.tsx:76-79 | Clearing empties the box and the search, and goes back to page 1 only if a search was active. |
| PdfGrid.GridRequestOf | components/pdf-grid.tsx:41-47 | The request carries `q` exactly when the debounced search is non-empty, plus the page and the page size 12. |
| PdfGrid.InitialGridRequest | components/pdf-grid.tsx:31-33 | The grid opens on page 1 with no search, which the timer leaves alone. |
| PdfGrid.DebounceSettles | components/pdf-grid.tsx:36-53 | Firing the timer twice is firing it once; after a changed search the request asks for page 1 with the new term. |
| PdfGrid.ClearSettles | components/pdf-grid.tsx:76-79 | Clearing twice is clearing once and leaves the timer nothing to do; the next request has no term and asks for page 1 when a search was active. |
| PdfGrid.WithEllipses | components/pdf-grid.tsx:233-240 | The row's numbers are the input numbers in order; the row is empty only for no numbers, and has at most two entries per number, and fewer when started with no previous number, as `VisiblePages` calls it. |
| PdfGrid.EllipsesAreJustified | components/pdf-grid.tsx:233-240 | For ascending positive numbers, every "..." sits between two numbers more than one apart. |
| PdfGrid.NoGapIsHidden | components/pdf-grid.tsx:233-240 | For ascending positive numbers, two adjacent numbers are never more than one apart. |
| PdfGrid.ShownNumbers | components/pdf-grid.tsx:224-231 | Strictly ascending; a number is shown exactly when it is 1, the last page, or in the clipped window around the current page. |
| PdfGrid.VisiblePagesShape | components/pdf-grid.tsx:224-241 | With at least one page the row starts with 1 and ends with the last page, its numbers ascend strictly within range around the current page, and "..." appears exactly where pages are skipped. |
| PdfGrid.VisiblePagesShowCurrent | components/pdf-grid.tsx:224-231 | The current page and its clipped neighbours are always shown. |
| PdfGrid.ShownNumbersCount | components/pdf-grid.tsx:224-231 | At most five numbers, and when there are five the middle three are consecutive. |
| PdfGrid.VisiblePagesLength | components/pdf-grid.tsx:224-241 | At most five numbers and seven entries in the row. |
| PdfGrid.PaginationView | components/pdf-grid.tsx:194-222 | No pager for a single page; otherwise Prev is off exactly on page 1, Next exactly on the last page, and the buttons show the visible pages. |
| PdfGrid.EnabledButtonsMove | components/pdf-grid.tsx:120-126 | An enabled Prev or Next moves to another page in range, and a disabled one would not move. |
| FolderBrowser.InitialNav | components/folder-browser.tsx:49-62 | The browser starts at the root with a one-crumb trail anchored at it, named by the title or "Root" when none is passed. |
| FolderBrowser.NavigateToFolder | components/folder-browser.tsx:64-67 | Opening a folder appends exactly its crumb, makes it current, and keeps the trail anchored at the root. |
| FolderBrowser.NavigateToBreadcrumb | components/folder-browser.tsx:69-73 | Jumping to an existing crumb keeps the trail up to it and makes it current; an index without a crumb is an error; the root anchor is kept. |
| FolderBrowser.GoBack | components/folder-browser.tsx:75-80 | Back drops the last crumb and shows the one before; at the root it changes nothing; the anchor is kept. |
| FolderBrowser.JumpToLastIsNoOp | components/folder-browser.tsx:69-73 | Jumping to the last crumb changes nothing. |
| FolderBrowser.BackUndoesNavigate | components/folder-browser.tsx:64-80 | Going back, or jumping to the previous last crumb, undoes opening a folder. |
| FolderBrowser.BackIsJumpToPrevious | components/folder-browser.tsx:69-80 | Going back is jumping to the next-to-last crumb. |
| FolderBrowser.OnNext | components/folder-browser.tsx:178-181 | Next pushes the next-page token exactly when it is present and non-empty, and the token becomes current. |
| FolderBrowser.OnPrev | components/folder-browser.tsx:182 | Previous pops the top token, and does nothing on an empty stack. |
| FolderBrowser.PrevUndoesNext | components/folder-browser.tsx:178-182 | Previous undoes Next, and both keep every stacked token non-empty. |
| FolderBrowser.ShowFolder | components/folder-browser.tsx:184-187 | Changing folder clears the token stack; staying keeps it. |
| FolderBrowser.RequestKey | components/folder-browser.tsx:166-173 | The key carries the folder and the page size (30 when none is passed), the current token exactly when it is set, and the search exactly when it is non-empty. |
| FolderBrowser.KeyHasTokenIffStacked | components/folder-browser.tsx:163-173 | With only non-empty tokens stacked, the key has a page token exactly when the stack is non-empty. |
| FolderBrowser.PagerView | components/folder-browser.tsx:208-295 | A page without items shows no pager; otherwise the pager shows when there is a previous or next page, Previous is off exactly on the first page, and Next exactly when there is no next token. |
| FolderBrowser.EnabledPagerButtonsMove | components/folder-browser.tsx:278-295 | An enabled pager button changes the token stack, and a disabled one would not. |
| PdfViewer.IdRun | components/pdf-viewer.tsx:16 | The greedy `+`: a run of id characters ending at the string's end or at a non-id character. |
| PdfViewer.FirstMatch | components/pdf-viewer.tsx:16-23 | A regular-expression search: the match found is the leftmost one, and there is none before it. |
| PdfViewer.Capture | components/pdf-viewer.tsx:16-25 | An id is captured exactly when the pattern matches somewhere; it is a non-empty run of id characters; and it is the whole run that follows the leftmost match. |
| PdfViewer.ExtractId | components/pdf-viewer.tsx:13-25 | An `id=` parameter overrides a `/file/d/` path, which is used exactly when there is no `id=` parameter; an id is found when either matches. |
| PdfViewer.ConvertGoogleDriveUrl | components/pdf-viewer.tsx:9-35 | A non-Drive URL, or one without an id, is returned unchanged; otherwise the result is exactly the preview URL of the id. |
| PdfViewer.PreviewExtractsItsId | components/pdf-viewer.tsx:13-30 | The preview URL of an id yields that id back. |
| PdfViewer.ConvertIdempotent | components/pdf-viewer.tsx:9-35 | Converting twice is converting once. |
| PdfViewer.TypeFlags | components/pdf-viewer.tsx:135-139 | Image exactly for an `image/` prefix, PDF exactly for `application/pdf`, and Word, PowerPoint and Excel exactly for their two types each. |
| PdfViewer.FlagsExclusive | components/pdf-viewer.tsx:135-139 | At most one flag is set, and exactly one for the listed types. |
| DriveScenario.ScenarioWalk | lib/drive.ts:73-128 | On a root holding folder "Sutras" (which holds "Kalpa.pdf") and "Readme.pdf", the walk lists root then Sutras and collects Readme with path "" and Kalpa with path "Sutras". |
| DriveScenario.ScenarioListing | lib/drive.ts:62-137 | The same tree lists as Kalpa then Readme, sorted by name. |
| DriveScenario.PagePastEnd | lib/drive.ts:139-153 | Asking for a page past the end of five items gives no items and a total of five. |

## Left out

- Network I/O, `fetch` options (`cache: "no-store"`, `revalidate`) and the `fields`
  projection are left out. The backend is an oracle of pages. The Drive API's own evaluation
  of the `q` string is not modelled, so the model does not say which files a query selects.
- URL building and percent-encoding (`URL`, `URLSearchParams`) are library behaviour. Requests
  are records of their parameters.
- The route handlers under app/api and all JSX rendering are thin adapters or markup, so they
  are left out.
- The viewer's loading simulation (timers, `Math.random`, prefetch links), `formatFileSize` and
  `formatDate` involve clocks, randomness, floating point and locale formatting.
- Concurrency is left out. The model is sequential, so interleaved cache misses (several walks
  at once) are not modelled.
- `Number(f.size)` parses a string as a float, so `size` stays the backend's string. An empty
  string becomes absent, as in the source.
- A listing response without a `files` field is not modelled. `files` is always a sequence;
  drive-browser's `data.files || []` then coincides with the empty sequence, and lib/drive.ts
  would throw.
- Page numbers are integers. The NaN, fractional and non-integer breadcrumb indices JavaScript
  allows are not modelled.
- Sorting.SortBy: stability is not stated. `Array.prototype.sort` is stable, so items with
  equal names keep their backend order in the source, but the model proves only sortedness
  and permutation.
- Drive.ListAllPdfsRecursively: `localeCompare` collation is replaced by code-point order, so
  the order of names differing only in case or accents may differ from a browser's.
- Drive.AncestorIds: the source loops forever on a cyclic parent map. The model stops at the
  first repeated id, and the result is stated only for the chain up to that point.
- Drive.BuildPathStep: stated only for a folder whose parent chain does not lead back to it.
  On a cyclic parent map the source loops forever, so there is no path to relate.
- Drive.Walk, Drive.RunQueue and Drive.FetchFolder: non-termination of a backend that never stops reporting
  folders or pages becomes `OutOfFuel`. No statement is made about how much fuel a given tree
  needs.
- Strings.ToLower: only ASCII letters are lower-cased. Other Unicode case mappings are not
  modelled.
- DriveBrowser.EscapeSingleQuotes: backslashes are not escaped in the source, so a term
  ending in `\` produces a name clause whose closing quote the Drive API reads as escaped.
  How the API parses that string is outside the model, so the model records only what the
  function does.

=== FILE: drive.dfy ===
/** The recursive listing behind the document library (lib/drive.ts): a breadth-first walk of
    a remote folder tree that follows every folder's paginated listing, rebuilds each PDF's
    folder path from a map of parent links, keeps the result in a single-slot cache with a
    ten-minute lifetime, and filters and pages the cached list on request. The remote
    backend is an oracle from list requests to responses; the clock is a parameter. */
module Drive {
  import opened Wrappers
  import opened Strings
  import opened Sorting

  const FolderMime := "application/vnd.google-apps.folder"
  const PdfMime := "application/pdf"
  /** Name given to the synthetic map entry of the walk's root. */
  const RootName := "Root"
  const CacheTtlMs := 10 * 60 * 1000
  /** Page size of every bulk listing request. */
  const BulkPageSize := 1000

  /** One storage object as the backend reports it; an absent `parents` is the empty list. */
  datatype RemoteFile = RemoteFile(
    id: string,
    name: string,
    mimeType: string,
    parents: seq<string>,
    thumbnailLink: Option<string>,
    modifiedTime: Option<string>,
    size: Option<string>)

  /** Folder-map entry; `parent == None` marks the walk's root. */
  datatype FolderNode = FolderNode(id: string, name: string, parent: Option<string>)

  /** One PDF of the walk's output; `size` is kept as the backend's decimal string. */
  datatype PdfItem = PdfItem(
    id: string,
    name: string,
    path: string,
    thumbnailLink: Option<string>,
    modifiedTime: Option<string>,
    size: Option<string>)

  /** What the listing operations throw. `OutOfFuel` stands for a walk that would not end. */
  datatype DriveError =
    | MissingApiKey
    | Upstream(status: int, body: string)
    | OutOfFuel

  /** The parameters one bulk listing request carries. */
  datatype ListRequest = ListRequest(
    key: string,
    q: string,
    pageToken: string,
    pageSize: int,
    allDrives: bool)

  datatype FilePage = FilePage(files: seq<RemoteFile>, nextPageToken: Option<string>)

  datatype ListResponse = ListOk(page: FilePage) | ListNotOk(status: int, body: string)

  /** The remote backend: what it answers to each request. */
  type Backend = ListRequest -> ListResponse

  /** The query listing the non-trashed subfolders and PDFs directly inside `folderId`. */
  function WalkQuery(folderId: string): string {
    "'" + folderId + "' in parents and trashed=false and (mimeType='" + FolderMime
    + "' or mimeType='" + PdfMime + "')"
  }

  function BulkRequest(apiKey: string, q: string, pageToken: string): ListRequest {
    ListRequest(apiKey, q, pageToken, BulkPageSize, false)
  }

  /** `driveList`: checks the API key before issuing the one request, and throws on a
      response that is not ok. An empty key counts as missing. */
  function DriveList(apiKey: string, q: string, pageToken: string, backend: Backend)
    : (r: Result<FilePage, DriveError>)
    ensures apiKey == "" ==> r == Err(MissingApiKey)
    ensures apiKey != "" ==> match backend(BulkRequest(apiKey, q, pageToken))
      case ListOk(page) => r == Ok(page)
      case ListNotOk(status, body) => r == Err(Upstream(status, body))
  {
    if apiKey == "" then Err(MissingApiKey)
    else match backend(BulkRequest(apiKey, q, pageToken))
      case ListOk(page) => Ok(page)
      case ListNotOk(status, body) => Err(Upstream(status, body))
  }

  /** A page token the source treats as "more pages follow": present and non-empty. */
  predicate HasMore(token: Option<string>) {
    token.Some? && token.value != ""
  }

  /** The request for one page of the listing of `folderId`. */
  function PageRequest(apiKey: string, folderId: string, pageToken: string): ListRequest {
    BulkRequest(apiKey, WalkQuery(folderId), pageToken)
  }

  /** The token the `i`-th request of a listing that starts from `token` carries: the first
      carries `token`, each later one the next-page token of the page before it. */
  function TokenBefore(token: string, pages: seq<FilePage>, i: nat): string
    requires i <= |pages|
  {
    if i == 0 then token
    else if pages[i - 1].nextPageToken.Some? then pages[i - 1].nextPageToken.value
    else ""
  }

  /** The backend answers the first `|pages|` requests of a listing of `folderId` from `token`
      with `pages`, and every page but the last announces a further one. */
  ghost predicate OkPages(backend: Backend, apiKey: string, folderId: string, token: string,
                          pages: seq<FilePage>) {
    && (forall i {:trigger TokenBefore(token, pages, i)} :: 0 <= i < |pages| ==>
          backend(PageRequest(apiKey, folderId, TokenBefore(token, pages, i))) == ListOk(pages[i]))
    && (forall i :: 0 <= i < |pages| - 1 ==> HasMore(pages[i].nextPageToken))
  }

  /** `pages` is a whole listing: the key is set, every request is answered ok, and the last
      page announces no further one. */
  ghost predicate PageChain(backend: Backend, apiKey: string, folderId: string, token: string,
                            pages: seq<FilePage>) {
    && apiKey != ""
    && |pages| > 0
    && OkPages(backend, apiKey, folderId, token, pages)
    && !HasMore(pages[|pages| - 1].nextPageToken)
  }

  /** A listing that breaks down after `pages`: they are answered ok, each announcing a
      further page, and the request after them is answered `ListNotOk(status, body)`. */
  ghost predicate FailedChain(backend: Backend, apiKey: string, folderId: string, token: string,
                              pages: seq<FilePage>, status: int, body: string) {
    && apiKey != ""
    && OkPages(backend, apiKey, folderId, token, pages)
    && (|pages| > 0 ==> HasMore(pages[|pages| - 1].nextPageToken))
    && backend(PageRequest(apiKey, folderId, TokenBefore(token, pages, |pages|)))
       == ListNotOk(status, body)
  }

  /** The records of `pages`, page after page. */
  function FilesOf(pages: seq<FilePage>): seq<RemoteFile> {
    if pages == [] then [] else pages[0].files + FilesOf(pages[1..])
  }

  /** Some request of the listing of `folderId` from `token` is answered not ok. */
  ghost predicate ListingFails(backend: Backend, apiKey: string, folderId: string, token: string,
                               status: int, body: string) {
    exists pages :: FailedChain(backend, apiKey, folderId, token, pages, status, body)
  }

  /** An ok first page announcing more, followed by the pages from its token. */
  lemma OkPagesCons(backend: Backend, apiKey: string, folderId: string, token: string,
                    page: FilePage, pages: seq<FilePage>)
    requires backend(PageRequest(apiKey, folderId, token)) == ListOk(page)
    requires HasMore(page.nextPageToken)
    requires OkPages(backend, apiKey, folderId, page.nextPageToken.value, pages)
    ensures OkPages(backend, apiKey, folderId, token, [page] + pages)
  {
    var all := [page] + pages;
    forall i | 0 <= i < |all|
      ensures backend(PageRequest(apiKey, folderId, TokenBefore(token, all, i))) == ListOk(all[i])
    {
      if i > 0 {
        assert TokenBefore(token, all, i) == TokenBefore(page.nextPageToken.value, pages, i - 1);
      }
    }
  }

  /** The pages after an ok first page that announces more are those of its token. */
  lemma OkPagesTail(backend: Backend, apiKey: string, folderId: string, token: string,
                    pages: seq<FilePage>)
    requires OkPages(backend, apiKey, folderId, token, pages)
    requires |pages| > 0 && HasMore(pages[0].nextPageToken)
    ensures OkPages(backend, apiKey, folderId, pages[0].nextPageToken.value, pages[1..])
  {
    var next := pages[0].nextPageToken.value;
    forall i | 0 <= i < |pages| - 1
      ensures backend(PageRequest(apiKey, folderId, TokenBefore(next, pages[1..], i)))
           == ListOk(pages[1..][i])
    {
      assert TokenBefore(next, pages[1..], i) == TokenBefore(token, pages, i + 1);
    }
  }

  lemma ListingOfOnePage(backend: Backend, apiKey: string, folderId: string, token: string,
                         page: FilePage)
    requires apiKey != ""
    requires backend(PageRequest(apiKey, folderId, token)) == ListOk(page)
    requires !HasMore(page.nextPageToken)
    ensures PageChain(backend, apiKey, folderId, token, [page])
  {
    assert TokenBefore(token, [page], 0) == token;
  }

  lemma ListingCons(backend: Backend, apiKey: string, folderId: string, token: string,
                    page: FilePage, rest: seq<FilePage>)
    requires apiKey != ""
    requires backend(PageRequest(apiKey, folderId, token)) == ListOk(page)
    requires HasMore(page.nextPageToken)
    requires PageChain(backend, apiKey, folderId, page.nextPageToken.value, rest)
    ensures PageChain(backend, apiKey, folderId, token, [page] + rest)
  {
    OkPagesCons(backend, apiKey, folderId, token, page, rest);
  }

  lemma FailsAtFirstPage(backend: Backend, apiKey: string, folderId: string, token: string,
                         status: int, body: string)
    requires apiKey != ""
    requires backend(PageRequest(apiKey, folderId, token)) == ListNotOk(status, body)
    ensures ListingFails(backend, apiKey, folderId, token, status, body)
  {
    assert FailedChain(backend, apiKey, folderId, token, [], status, body);
  }

  lemma FailsLater(backend: Backend, apiKey: string, folderId: string, token: string,
                   page: FilePage, status: int, body: string)
    requires apiKey != ""
    requires backend(PageRequest(apiKey, folderId, token)) == ListOk(page)
    requires HasMore(page.nextPageToken)
    requires ListingFails(backend, apiKey, folderId, page.nextPageToken.value, status, body)
    ensures ListingFails(backend, apiKey, folderId, token, status, body)
  {
    var next := page.nextPageToken.value;
    var pages :| FailedChain(backend, apiKey, folderId, next, pages, status, body);
    OkPagesCons(backend, apiKey, folderId, token, page, pages);
    var all := [page] + pages;
    assert TokenBefore(token, all, |all|) == TokenBefore(next, pages, |pages|);
    assert FailedChain(backend, apiKey, folderId, token, all, status, body);
  }

  /** The pages of one folder listing, starting from `pageToken`, followed while the backend
      reports a next page; `fuel` bounds the number of requests. What it returns is the
      backend's answer: on success a whole chain of pages, on an upstream error the answer to
      a request of that chain. */
  function FetchFolder(backend: Backend, apiKey: string, folderId: string, pageToken: string, fuel: nat)
    : (r: Result<seq<FilePage>, DriveError>)
    ensures fuel > 0 && apiKey == "" ==> r == Err(MissingApiKey)
    ensures r.Ok? ==> PageChain(backend, apiKey, folderId, pageToken, r.value)
    ensures r.Err? ==>
      || (r.error == MissingApiKey && apiKey == "")
      || r.error == OutOfFuel
      || (r.error.Upstream?
          && ListingFails(backend, apiKey, folderId, pageToken, r.error.status, r.error.body))
    decreases fuel
  {
    if fuel == 0 then Err(OutOfFuel)
    else match DriveList(apiKey, WalkQuery(folderId), pageToken, backend)
      case Err(e) =>
        if e.Upstream? then
          FailsAtFirstPage(backend, apiKey, folderId, pageToken, e.status, e.body);
          Err(e)
        else Err(e)
      case Ok(page) =>
        if HasMore(page.nextPageToken) then
          match FetchFolder(backend, apiKey, folderId, page.nextPageToken.value, fuel - 1)
          case Err(e) =>
            if e.Upstream? then
              FailsLater(backend, apiKey, folderId, pageToken, page, e.status, e.body);
              Err(e)
            else Err(e)
          case Ok(rest) =>
            ListingCons(backend, apiKey, folderId, pageToken, page, rest);
            Ok([page] + rest)
        else
          ListingOfOnePage(backend, apiKey, folderId, pageToken, page);
          Ok([page])
  }

  /** With a request to spare per page, a listing returns exactly the backend's chain of
      pages: the listing is determined by the backend. */
  lemma {:induction false} FetchFolderComplete(backend: Backend, apiKey: string, folderId: string,
                                               token: string, pages: seq<FilePage>, fuel: nat)
    requires PageChain(backend, apiKey, folderId, token, pages) && fuel >= |pages|
    decreases |pages|
    ensures FetchFolder(backend, apiKey, folderId, token, fuel) == Ok(pages)
  {
    var first := pages[0];
    assert TokenBefore(token, pages, 0) == token;
    assert DriveList(apiKey, WalkQuery(folderId), token, backend) == Ok(first);
    if |pages| == 1 {
      assert pages == [first];
    } else {
      assert HasMore(first.nextPageToken);
      OkPagesTail(backend, apiKey, folderId, token, pages);
      FetchFolderComplete(backend, apiKey, folderId, first.nextPageToken.value, pages[1..], fuel - 1);
      assert pages == [first] + pages[1..];
    }
  }

  /** A page answered not ok aborts the listing with its status and body. */
  lemma {:induction false} FetchFolderFails(backend: Backend, apiKey: string, folderId: string,
                                            token: string, pages: seq<FilePage>,
                                            status: int, body: string, fuel: nat)
    requires FailedChain(backend, apiKey, folderId, token, pages, status, body) && fuel > |pages|
    decreases |pages|
    ensures FetchFolder(backend, apiKey, folderId, token, fuel) == Err(Upstream(status, body))
  {
    if pages == [] {
      assert TokenBefore(token, pages, 0) == token;
      assert DriveList(apiKey, WalkQuery(folderId), token, backend) == Err(Upstream(status, body));
    } else {
      var first := pages[0];
      assert TokenBefore(token, pages, 0) == token;
      assert DriveList(apiKey, WalkQuery(folderId), token, backend) == Ok(first);
      assert HasMore(first.nextPageToken);
      OkPagesTail(backend, apiKey, folderId, token, pages);
      var next := first.nextPageToken.value;
      assert TokenBefore(token, pages, |pages|) == TokenBefore(next, pages[1..], |pages| - 1);
      FetchFolderFails(backend, apiKey, folderId, next, pages[1..], status, body, fuel - 1);
    }
  }

  /** The folder ids `buildPath` passes through from `current` towards the root: each is in
      the map and has a parent, and each next id is the previous one's parent. The chain stops
      at an empty id, an id missing from the map, or a node without parent (the root).
      Stopping at an id already passed is this model's guard against a cyclic map, on which
      the source would loop for ever. */
  function AncestorIds(current: string, folders: map<string, FolderNode>, seen: set<string>)
    : (ids: seq<string>)
    ensures forall i :: 0 <= i < |ids| ==> ids[i] in folders && folders[ids[i]].parent.Some?
    ensures forall i :: 0 <= i < |ids| - 1 ==> ids[i + 1] == folders[ids[i]].parent.value
    ensures forall i, j :: 0 <= i < j < |ids| ==> ids[i] != ids[j]
    ensures forall i :: 0 <= i < |ids| ==> ids[i] !in seen
    ensures ids == [] <==>
      current == "" || current !in folders || current in seen || folders[current].parent.None?
    ensures ids != [] ==> ids[0] == current
    ensures ids != [] ==> ChainEnds(folders[ids[|ids| - 1]].parent.value, folders, seen, ids)
    decreases folders.Keys - seen
  {
    if current == "" || current !in folders || current in seen || folders[current].parent.None? then
      []
    else
      [current] + AncestorIds(folders[current].parent.value, folders, seen + {current})
  }

  /** The walk up from `next` stops at once. */
  predicate ChainEnds(next: string, folders: map<string, FolderNode>, seen: set<string>, ids: seq<string>) {
    next == "" || next !in folders || next in seen || next in ids || folders[next].parent.None?
  }

  function NamesOf(ids: seq<string>, folders: map<string, FolderNode>): (names: seq<string>)
    requires forall i :: 0 <= i < |ids| ==> ids[i] in folders
    ensures |names| == |ids|
    ensures forall i :: 0 <= i < |ids| ==> names[i] == folders[ids[i]].name
  {
    seq(|ids|, i requires 0 <= i < |ids| => folders[ids[i]].name)
  }

  /** `buildPath`: the names of the folders between the root (excluded) and `folderId`
      (included), root first, joined with "/". */
  function BuildPath(folderId: Option<string>, folders: map<string, FolderNode>): (r: string)
    ensures folderId.None? || folderId == Some("") ==> r == ""
    ensures folderId.Some? && folderId.value in folders && folders[folderId.value].parent.None? ==> r == ""
    ensures folderId.Some? && folderId.value !in folders ==> r == ""
  {
    if folderId.None? then ""
    else
      var ids := AncestorIds(folderId.value, folders, {});
      Join(Reverse(NamesOf(ids, folders)), "/")
  }

  lemma BuildPathNested()
    ensures var folders := map[
        "r" := FolderNode("r", RootName, None),
        "a" := FolderNode("a", "A", Some("r")),
        "b" := FolderNode("b", "B", Some("a"))];
      BuildPath(Some("b"), folders) == "A/B" && BuildPath(Some("a"), folders) == "A"
      && BuildPath(Some("r"), folders) == ""
  {
    NestedAncestors();
    var folders := map[
        "r" := FolderNode("r", RootName, None),
        "a" := FolderNode("a", "A", Some("r")),
        "b" := FolderNode("b", "B", Some("a"))];
    assert NamesOf(["b", "a"], folders) == ["B", "A"];
    assert Reverse(["B", "A"]) == ["A", "B"];
  }

  lemma NestedAncestors()
    ensures var folders := map[
        "r" := FolderNode("r", RootName, None),
        "a" := FolderNode("a", "A", Some("r")),
        "b" := FolderNode("b", "B", Some("a"))];
      AncestorIds("b", folders, {}) == ["b", "a"] && AncestorIds("a", folders, {}) == ["a"]
  {
    var folders := map[
        "r" := FolderNode("r", RootName, None),
        "a" := FolderNode("a", "A", Some("r")),
        "b" := FolderNode("b", "B", Some("a"))];
    assert AncestorIds("r", folders, {"b", "a"}) == [];
    assert AncestorIds("a", folders, {"b"}) == ["a"];
    assert AncestorIds("r", folders, {"a"}) == [];
  }

  /** A parent missing from the map ends the path where it is, without an error. */
  lemma BuildPathStopsAtMissingParent()
    ensures var folders := map[
        "a" := FolderNode("a", "A", Some("gone")),
        "b" := FolderNode("b", "B", Some("a"))];
      BuildPath(Some("b"), folders) == "A/B"
  {
    var folders := map[
        "a" := FolderNode("a", "A", Some("gone")),
        "b" := FolderNode("b", "B", Some("a"))];
    assert AncestorIds("gone", folders, {"b", "a"}) == [];
    assert AncestorIds("b", folders, {}) == ["b", "a"];
    assert NamesOf(["b", "a"], folders) == ["B", "A"];
    assert Reverse(["B", "A"]) == ["A", "B"];
  }

  /** Marking one more id as passed changes nothing when the chain does not reach it. */
  lemma {:induction false} AncestorIdsIgnoresUnreached(current: string, folders: map<string, FolderNode>,
                                                       seen: set<string>, x: string)
    requires x !in AncestorIds(current, folders, seen)
    ensures AncestorIds(current, folders, seen + {x}) == AncestorIds(current, folders, seen)
    decreases folders.Keys - seen
  {
    if current != "" && current in folders && current !in seen && folders[current].parent.Some? {
      AncestorIdsIgnoresUnreached(folders[current].parent.value, folders, seen + {current}, x);
      assert seen + {x} + {current} == seen + {current} + {x};
    }
  }

  /** `buildPath` climbs one level at a time: a folder's path is its parent's path followed
      by "/" and its own name, or just its name when the parent is the root, empty or missing
      from the map. */
  lemma BuildPathStep(id: string, folders: map<string, FolderNode>)
    requires id != "" && id in folders && folders[id].parent.Some?
    requires id !in AncestorIds(folders[id].parent.value, folders, {})
    ensures var p := folders[id].parent.value;
      BuildPath(Some(id), folders)
      == if AncestorIds(p, folders, {}) == [] then folders[id].name
         else BuildPath(Some(p), folders) + "/" + folders[id].name
  {
    var p := folders[id].parent.value;
    var tail := AncestorIds(p, folders, {});
    AncestorIdsIgnoresUnreached(p, folders, {}, id);
    assert {} + {id} == {id};
    assert AncestorIds(id, folders, {}) == [id] + tail;
    JoinNamesCons(id, tail, folders);
  }

  /** The joined names of a chain one folder longer at its start end in that folder's name. */
  lemma JoinNamesCons(id: string, tail: seq<string>, folders: map<string, FolderNode>)
    requires id in folders && forall i :: 0 <= i < |tail| ==> tail[i] in folders
    ensures Join(Reverse(NamesOf([id] + tail, folders)), "/")
         == if tail == [] then folders[id].name
            else Join(Reverse(NamesOf(tail, folders)), "/") + "/" + folders[id].name
  {
    var names := NamesOf(tail, folders);
    assert NamesOf([id] + tail, folders) == [folders[id].name] + names;
    assert ([folders[id].name] + names)[1..] == names;
    assert Reverse([folders[id].name] + names) == Reverse(names) + [folders[id].name];
    JoinSnoc(Reverse(names), folders[id].name, "/");
  }

  /** First parent of a record, `f.parents?.[0]`. */
  function FirstParent(f: RemoteFile): Option<string> {
    if |f.parents| > 0 then Some(f.parents[0]) else None
  }

  /** The ids of the folder records among `fs`, in order. */
  function FolderIds(fs: seq<RemoteFile>): (ids: seq<string>)
    ensures |ids| <= |fs|
  {
    if fs == [] then []
    else
      var last := fs[|fs| - 1];
      FolderIds(fs[..|fs| - 1]) + (if last.mimeType == FolderMime then [last.id] else [])
  }

  /** The ids `FolderIds` lists are exactly those of the folder records among `fs`. */
  lemma {:induction false} FolderIdsAreFolderRecords(fs: seq<RemoteFile>)
    ensures (set id | id in FolderIds(fs)) == (set f | f in fs && f.mimeType == FolderMime :: f.id)
  {
    if fs != [] {
      var init, last := fs[..|fs| - 1], fs[|fs| - 1];
      FolderIdsAreFolderRecords(init);
      assert fs == init + [last];
      var before := set f | f in init && f.mimeType == FolderMime :: f.id;
      var all := set f | f in fs && f.mimeType == FolderMime :: f.id;
      forall id | id in all
        ensures id in FolderIds(fs)
      {
        var f :| f in fs && f.mimeType == FolderMime && f.id == id;
        if f != last {
          assert f in init;
          assert id in before;
        }
      }
      forall id | id in FolderIds(fs)
        ensures id in all
      {
        if id in FolderIds(init) {
          assert id in before;
          var f :| f in init && f.mimeType == FolderMime && f.id == id;
          assert f in fs;
        } else {
          assert last in fs;
        }
      }
    }
  }

  /** The PDF records among `fs`, in order. */
  function Pdfs(fs: seq<RemoteFile>): (ps: seq<RemoteFile>)
    ensures |ps| <= |fs|
    ensures forall i :: 0 <= i < |ps| ==> ps[i] in fs && ps[i].mimeType == PdfMime
  {
    if fs == [] then []
    else
      var last := fs[|fs| - 1];
      Pdfs(fs[..|fs| - 1]) + (if last.mimeType == PdfMime then [last] else [])
  }

  /** `item` carries the record `f` over into the output (the path aside). */
  predicate Carries(item: PdfItem, f: RemoteFile) {
    && item.id == f.id
    && item.name == f.name
    && item.thumbnailLink == f.thumbnailLink
    && item.modifiedTime == f.modifiedTime
    && item.size == (if f.size.Some? && f.size.value != "" then f.size else None)
  }

  /** The output item for the PDF record `f` found under the folder path `path`. */
  function PdfItemOf(f: RemoteFile, path: string): (item: PdfItem)
    ensures Carries(item, f) && item.path == path
  {
    var size := if f.size.Some? && f.size.value != "" then f.size else None;
    PdfItem(f.id, f.name, path, f.thumbnailLink, f.modifiedTime, size)
  }

  /** The folder map that the records `rs`, handled in order, leave behind: the root's entry,
      then for each folder record an entry with its name and first parent, a later record
      for the same id replacing the earlier entry. */
  function FoldersOf(root: string, rs: seq<RemoteFile>): (m: map<string, FolderNode>)
    ensures m.Keys == {root} + (set id | id in FolderIds(rs))
  {
    if rs == [] then map[root := FolderNode(root, RootName, None)]
    else
      var last := rs[|rs| - 1];
      var m := FoldersOf(root, rs[..|rs| - 1]);
      if last.mimeType == FolderMime then m[last.id := FolderNode(last.id, last.name, FirstParent(last))]
      else m
  }

  /** The PDFs that the records `rs`, handled in order, yield: one item per PDF record, each
      with the path of its first parent in the folder map built from the records before it. */
  function ItemsOf(root: string, rs: seq<RemoteFile>): (items: seq<PdfItem>)
    ensures |items| == |Pdfs(rs)|
    ensures forall i :: 0 <= i < |items| ==> Carries(items[i], Pdfs(rs)[i])
  {
    if rs == [] then []
    else
      var init := rs[..|rs| - 1];
      var last := rs[|rs| - 1];
      ItemsOf(root, init)
      + (if last.mimeType == PdfMime then [PdfItemOf(last, BuildPath(FirstParent(last), FoldersOf(root, init)))]
         else [])
  }

  /** The walk in progress: the FIFO queue of folders still to list, the folder map, the
      PDFs collected so far, and, as a record of what happened, the folders already listed,
      every record the backend returned, in order, and the pages of each folder listed. */
  datatype WalkState = WalkState(
    root: string,
    queue: seq<string>,
    folders: map<string, FolderNode>,
    collected: seq<PdfItem>,
    visited: seq<string>,
    listed: seq<RemoteFile>,
    listings: seq<seq<FilePage>>)

  function StartWalk(root: string): WalkState {
    WalkState(root, [root], map[root := FolderNode(root, RootName, None)], [], [], [], [])
  }

  /** What the walk keeps true: the folders listed followed by the queue are exactly the root
      followed by every folder record seen, and the folder map and the collected PDFs are
      what the records seen yield when handled in order. */
  ghost predicate WalkInv(s: WalkState) {
    && s.visited + s.queue == [s.root] + FolderIds(s.listed)
    && s.folders == FoldersOf(s.root, s.listed)
    && s.collected == ItemsOf(s.root, s.listed)
  }

  /** The records of the listings `ls`, one listing after another. */
  function Concat(ls: seq<seq<FilePage>>): seq<RemoteFile> {
    if ls == [] then [] else Concat(ls[..|ls| - 1]) + FilesOf(ls[|ls| - 1])
  }

  /** What ties the walk to the backend: each folder listed was listed in full from its first
      page, and the records seen are those listings one after another, in the order the
      folders were listed. */
  ghost predicate ListedFrom(backend: Backend, apiKey: string, s: WalkState) {
    && |s.listings| == |s.visited|
    && Concat(s.listings) == s.listed
    && forall i :: 0 <= i < |s.visited| ==> PageChain(backend, apiKey, s.visited[i], "", s.listings[i])
  }

  lemma StartWalkInv(root: string)
    ensures WalkInv(StartWalk(root))
  {
  }

  /** The states around one record share root, folders listed and listings. */
  predicate Advances(s: WalkState, f: RemoteFile, s': WalkState) {
    s'.root == s.root && s'.visited == s.visited && s'.listings == s.listings && s'.listed == s.listed + [f]
  }

  /** One record of a listing page: a folder is registered under its first parent and queued,
      a PDF is collected with the path of its first parent as the map stands now, and any
      other record is skipped. */
  function ProcessFile(s: WalkState, f: RemoteFile): (s': WalkState)
    ensures Advances(s, f, s')
    ensures s.collected <= s'.collected
    ensures WalkInv(s) ==> WalkInv(s')
  {
    if f.mimeType == FolderMime then RegisterFolder(s, f)
    else if f.mimeType == PdfMime then CollectPdf(s, f)
    else SkipFile(s, f)
  }

  function RegisterFolder(s: WalkState, f: RemoteFile): (s': WalkState)
    requires f.mimeType == FolderMime
    ensures Advances(s, f, s')
    ensures s'.collected == s.collected && s'.queue == s.queue + [f.id]
    ensures f.id in s'.folders && s'.folders[f.id] == FolderNode(f.id, f.name, FirstParent(f))
    ensures forall id :: id in s.folders && id != f.id ==> id in s'.folders && s'.folders[id] == s.folders[id]
    ensures s'.folders.Keys == s.folders.Keys + {f.id}
    ensures WalkInv(s) ==> WalkInv(s')
  {
    var s' := s.(folders := s.folders[f.id := FolderNode(f.id, f.name, FirstParent(f))],
                 queue := s.queue + [f.id],
                 listed := s.listed + [f]);
    assert (s.listed + [f])[..|s.listed|] == s.listed;
    assert s.visited + (s.queue + [f.id]) == (s.visited + s.queue) + [f.id];
    s'
  }

  function CollectPdf(s: WalkState, f: RemoteFile): (s': WalkState)
    requires f.mimeType == PdfMime
    ensures Advances(s, f, s')
    ensures s'.queue == s.queue && s'.folders == s.folders
    ensures |s'.collected| == |s.collected| + 1 && s'.collected[..|s.collected|] == s.collected
    ensures var item := s'.collected[|s.collected|];
      Carries(item, f) && item.path == BuildPath(FirstParent(f), s.folders)
    ensures WalkInv(s) ==> WalkInv(s')
  {
    var item := PdfItemOf(f, BuildPath(FirstParent(f), s.folders));
    CollectPreserves(s, f);
    assert (s.collected + [item])[..|s.collected|] == s.collected;
    s.(collected := s.collected + [item], listed := s.listed + [f])
  }

  /** Collecting a PDF record with the path of its first parent in the current map keeps the
      invariant: the collected items stay those the records seen yield. */
  lemma CollectPreserves(s: WalkState, f: RemoteFile)
    requires f.mimeType == PdfMime
    ensures var item := PdfItemOf(f, BuildPath(FirstParent(f), s.folders));
      WalkInv(s) ==> WalkInv(s.(collected := s.collected + [item], listed := s.listed + [f]))
  {
    assert (s.listed + [f])[..|s.listed|] == s.listed;
  }

  function SkipFile(s: WalkState, f: RemoteFile): (s': WalkState)
    requires f.mimeType != FolderMime && f.mimeType != PdfMime
    ensures Advances(s, f, s')
    ensures s'.queue == s.queue && s'.folders == s.folders && s'.collected == s.collected
    ensures WalkInv(s) ==> WalkInv(s')
  {
    var s' := s.(listed := s.listed + [f]);
    assert (s.listed + [f])[..|s.listed|] == s.listed;
    s'
  }

  /** The records of one listing, in order. */
  function ProcessFiles(s: WalkState, fs: seq<RemoteFile>): (s': WalkState)
    ensures s'.root == s.root && s'.visited == s.visited && s'.listings == s.listings
    ensures s'.listed == s.listed + fs
    ensures s.collected <= s'.collected
    ensures WalkInv(s) ==> WalkInv(s')
    decreases |fs|
  {
    if fs == [] then s
    else
      var s' := ProcessFiles(ProcessFile(s, fs[0]), fs[1..]);
      assert s.listed + [fs[0]] + fs[1..] == s.listed + fs;
      s'
  }

  /** Listing one more folder in full keeps the walk tied to the backend. */
  lemma ListedStep(backend: Backend, apiKey: string, s: WalkState, fid: string,
                   pages: seq<FilePage>, s': WalkState)
    requires PageChain(backend, apiKey, fid, "", pages)
    requires s'.visited == s.visited + [fid] && s'.listings == s.listings + [pages]
    requires s'.listed == s.listed + FilesOf(pages)
    ensures ListedFrom(backend, apiKey, s) ==> ListedFrom(backend, apiKey, s')
  {
    assert s'.listings[..|s.listings|] == s.listings;
  }

  /** The BFS loop: list the folder at the head of the queue, process its records, repeat
      until the queue is empty. Any failed request aborts the whole walk. `fuel` bounds the
      number of folders listed and the pages per folder. */
  function RunQueue(backend: Backend, apiKey: string, s: WalkState, fuel: nat)
    : (r: Result<WalkState, DriveError>)
    ensures r.Ok? ==> r.value.queue == [] && r.value.root == s.root
    ensures r.Ok? ==> s.listed <= r.value.listed && s.collected <= r.value.collected
    ensures r.Ok? ==> s.visited <= r.value.visited
    ensures r.Ok? && WalkInv(s) ==> WalkInv(r.value)
    ensures r.Ok? && ListedFrom(backend, apiKey, s) ==> ListedFrom(backend, apiKey, r.value)
    ensures s.queue == [] ==> r == Ok(s)
    ensures s.queue != [] && fuel > 0 && FetchFolder(backend, apiKey, s.queue[0], "", fuel).Err? ==>
      r == Err(FetchFolder(backend, apiKey, s.queue[0], "", fuel).error)
    ensures s.queue != [] && fuel > 0 && apiKey == "" ==> r == Err(MissingApiKey)
    ensures r.Err? ==>
      || (r.error == MissingApiKey && apiKey == "")
      || r.error == OutOfFuel
      || (r.error.Upstream?
          && exists fid :: ListingFails(backend, apiKey, fid, "", r.error.status, r.error.body))
    decreases fuel
  {
    if s.queue == [] then Ok(s)
    else if fuel == 0 then Err(OutOfFuel)
    else
      var fid := s.queue[0];
      match FetchFolder(backend, apiKey, fid, "", fuel)
      case Err(e) => Err(e)
      case Ok(pages) =>
        var next := s.(queue := s.queue[1..], visited := s.visited + [fid],
                       listings := s.listings + [pages]);
        assert next.visited + next.queue == s.visited + s.queue;
        var s' := ProcessFiles(next, FilesOf(pages));
        ListedStep(backend, apiKey, s, fid, pages, s');
        RunQueue(backend, apiKey, s', fuel - 1)
  }

  /** One round of the BFS: the head of the queue is listed in full, moved to the visited
      folders, and its records are handled in order before the rest of the queue. */
  lemma RunQueueStep(backend: Backend, apiKey: string, s: WalkState, pages: seq<FilePage>, fuel: nat)
    requires s.queue != [] && fuel > 0
    requires FetchFolder(backend, apiKey, s.queue[0], "", fuel) == Ok(pages)
    ensures RunQueue(backend, apiKey, s, fuel)
         == RunQueue(backend, apiKey,
                     ProcessFiles(s.(queue := s.queue[1..], visited := s.visited + [s.queue[0]],
                                     listings := s.listings + [pages]), FilesOf(pages)),
                     fuel - 1)
  {
  }

  /** A listing that breaks down for the folder at the head of the queue aborts the walk with
      the backend's status and body, whatever else the queue holds. */
  lemma FailedListingAbortsWalk(backend: Backend, apiKey: string, s: WalkState,
                                pages: seq<FilePage>, status: int, body: string, fuel: nat)
    requires s.queue != []
    requires FailedChain(backend, apiKey, s.queue[0], "", pages, status, body) && fuel > |pages|
    ensures RunQueue(backend, apiKey, s, fuel) == Err(Upstream(status, body))
  {
    FetchFolderFails(backend, apiKey, s.queue[0], "", pages, status, body, fuel);
  }

  /** The BFS walk from `root`. On success the root and every folder record met were listed
      in full from the first page, in the order they were discovered; the records seen are
      those listings; and the folder map and the collected PDFs are what those records yield
      when handled in order. A failure is a missing key, a walk that would not end, or a
      request the backend answered not ok. */
  function Walk(backend: Backend, apiKey: string, root: string, fuel: nat)
    : (r: Result<WalkState, DriveError>)
    ensures fuel > 0 && apiKey == "" ==> r == Err(MissingApiKey)
    ensures r.Ok? ==> WalkInv(r.value) && r.value.root == root && r.value.queue == []
    ensures r.Ok? ==> r.value.visited == [root] + FolderIds(r.value.listed)
    ensures r.Ok? ==> r.value.folders == FoldersOf(root, r.value.listed)
    ensures r.Ok? ==> r.value.collected == ItemsOf(root, r.value.listed)
    ensures r.Ok? ==> ListedFrom(backend, apiKey, r.value)
    ensures r.Err? ==>
      || (r.error == MissingApiKey && apiKey == "")
      || r.error == OutOfFuel
      || (r.error.Upstream?
          && exists fid :: ListingFails(backend, apiKey, fid, "", r.error.status, r.error.body))
  {
    StartWalkInv(root);
    RunQueue(backend, apiKey, StartWalk(root), fuel)
  }

  /** The process-wide cache slot. */
  datatype Cache = Cache(folderId: Option<string>, items: seq<PdfItem>, lastFetch: int)

  /** The slot at process start. */
  const EmptyCache := Cache(None, [], 0)

  /** The cached list answers a request for `root` at time `now`. */
  predicate CacheHit(c: Cache, root: string, now: int) {
    |c.items| > 0 && c.folderId == Some(root) && now - c.lastFetch < CacheTtlMs
  }

  /** What one call returns, together with the cache it leaves behind. */
  datatype Fetched = Fetched(result: Result<seq<PdfItem>, DriveError>, cache: Cache)

  /** `a.name.localeCompare(b.name) <= 0` */
  predicate ItemLe(a: PdfItem, b: PdfItem) {
    NameLe(a.name, b.name)
  }

  lemma ItemLeIsTotalPreorder()
    ensures TotalPreorder(ItemLe)
  {
    forall a: PdfItem, b: PdfItem
      ensures ItemLe(a, b) || ItemLe(b, a)
    {
      NameLeTotal(a.name, b.name);
    }
    forall a: PdfItem, b: PdfItem, c: PdfItem | ItemLe(a, b) && ItemLe(b, c)
      ensures ItemLe(a, c)
    {
      NameLeTransitive(a.name, b.name, c.name);
    }
  }

  /** `listAllPdfsRecursively`: answers from the cache when it holds a non-empty list for the
      same root younger than the lifetime; otherwise walks the tree and, only if the walk
      succeeds, replaces the cache with the root, the PDFs sorted by name and the time the
      walk finished (`doneAt`). */
  function ListAllPdfsRecursively(cache: Cache, apiKey: string, backend: Backend, root: string,
                                  now: int, doneAt: int, fuel: nat): (out: Fetched)
    ensures CacheHit(cache, root, now) ==> out == Fetched(Ok(cache.items), cache)
    ensures !CacheHit(cache, root, now) && fuel > 0 && apiKey == "" ==>
      out == Fetched(Err(MissingApiKey), cache)
    ensures out.result.Err? ==> out.cache == cache
    ensures out.result.Ok? ==> out.result.value == out.cache.items
    ensures out.result.Ok? && !CacheHit(cache, root, now) ==>
      && out.cache.folderId == Some(root)
      && out.cache.lastFetch == doneAt
      && SortedBy(ItemLe, out.cache.items)
      && Walk(backend, apiKey, root, fuel).Ok?
      && multiset(out.cache.items) == multiset(Walk(backend, apiKey, root, fuel).value.collected)
    ensures !CacheHit(cache, root, now) ==>
      (out.result.Ok? <==> Walk(backend, apiKey, root, fuel).Ok?)
    ensures !CacheHit(cache, root, now) && Walk(backend, apiKey, root, fuel).Err? ==>
      out == Fetched(Err(Walk(backend, apiKey, root, fuel).error), cache)
  {
    if CacheHit(cache, root, now) then Fetched(Ok(cache.items), cache)
    else match Walk(backend, apiKey, root, fuel)
      case Err(e) => Fetched(Err(e), cache)
      case Ok(s) =>
        ItemLeIsTotalPreorder();
        var sorted := SortBy(s.collected, ItemLe);
        Fetched(Ok(sorted), Cache(Some(root), sorted, doneAt))
  }

  /** A second call for the same root within the lifetime of a non-empty result makes no
      request: its answer is the same whatever the backend, key or fuel. */
  lemma RepeatWithinTtlIsServedFromCache(
    cache: Cache, apiKey: string, backend: Backend, root: string, now: int, doneAt: int, fuel: nat,
    apiKey2: string, backend2: Backend, now2: int, doneAt2: int, fuel2: nat)
    requires var first := ListAllPdfsRecursively(cache, apiKey, backend, root, now, doneAt, fuel);
      first.result.Ok? && |first.result.value| > 0 && now2 - first.cache.lastFetch < CacheTtlMs
    ensures var first := ListAllPdfsRecursively(cache, apiKey, backend, root, now, doneAt, fuel);
      ListAllPdfsRecursively(first.cache, apiKey2, backend2, root, now2, doneAt2, fuel2) == first
  {
  }

  /** A cache that does not answer — expired, empty, or holding another root — behaves exactly
      as the empty slot at process start: the tree is walked again. */
  lemma MissIsColdStart(cache: Cache, apiKey: string, backend: Backend, root: string,
                        now: int, doneAt: int, fuel: nat)
    requires cache.items == [] || cache.folderId != Some(root) || now - cache.lastFetch >= CacheTtlMs
    ensures ListAllPdfsRecursively(cache, apiKey, backend, root, now, doneAt, fuel).result
         == ListAllPdfsRecursively(EmptyCache, apiKey, backend, root, now, doneAt, fuel).result
  {
  }

  /** After a walk for `y` replaced the cache, a request for another root `x` walks again. */
  lemma OtherRootIsNotServed(cache: Cache, apiKey: string, backend: Backend, x: string, y: string,
                             now: int, doneAt: int, fuel: nat, now2: int, doneAt2: int)
    requires x != y
    requires ListAllPdfsRecursively(cache, apiKey, backend, y, now, doneAt, fuel).result.Ok?
    ensures var c := ListAllPdfsRecursively(cache, apiKey, backend, y, now, doneAt, fuel).cache;
      !CacheHit(c, x, now2)
  {
  }

  /** Whether `item` matches a trimmed, lower-cased, non-empty query: the query occurs in the
      lower-cased name, or in the lower-cased path when the path is not empty. */
  predicate Matches(item: PdfItem, query: string) {
    Includes(ToLower(item.name), query) || (item.path != "" && Includes(ToLower(item.path), query))
  }

  /** `items.filter(...)`: the matching items, in their input order. */
  function FilterItems(items: seq<PdfItem>, query: string): (r: seq<PdfItem>)
    ensures |r| <= |items|
    ensures forall x :: x in r ==> x in items && Matches(x, query)
    ensures forall x :: x in items && Matches(x, query) ==> x in r
  {
    if items == [] then []
    else (if Matches(items[0], query) then [items[0]] else []) + FilterItems(items[1..], query)
  }

  /** Filtering keeps the input order: it distributes over concatenation. */
  lemma {:induction false} FilterItemsAppend(a: seq<PdfItem>, b: seq<PdfItem>, query: string)
    ensures FilterItems(a + b, query) == FilterItems(a, query) + FilterItems(b, query)
  {
    if a != [] {
      assert (a + b)[1..] == a[1..] + b;
      FilterItemsAppend(a[1..], b, query);
    } else {
      assert a + b == b;
    }
  }

  /** Index normalisation of `Array.prototype.slice`: a negative index counts from the end,
      and the result is clamped to `[0, len]`. */
  function SliceIndex(i: int, len: nat): (r: nat)
    ensures r <= len
    ensures 0 <= i <= len ==> r == i
    ensures i > len ==> r == len
    ensures i < 0 ==> r == if len + i < 0 then 0 else len + i
  {
    if i < 0 then (if len + i < 0 then 0 else len + i)
    else if i > len then len
    else i
  }

  /** `s.slice(start, end)` */
  function Slice<T>(s: seq<T>, start: int, end: int): seq<T> {
    var a := SliceIndex(start, |s|);
    var b := SliceIndex(end, |s|);
    if a < b then s[a..b] else []
  }

  /** `s.slice(start, start + size)`: at most `size` elements of `s`; from a non-negative
      start, the elements from `start` on, as many as there are up to `size`. For any start
      and size, both ends are read as `slice` reads them (a negative one counts from the end,
      one past the end stops there), and the run between them is kept, empty when the end
      does not lie after the start. */
  function Window<T>(s: seq<T>, start: int, size: int): (r: seq<T>)
    ensures var a := SliceIndex(start, |s|);
            var b := SliceIndex(start + size, |s|);
            && |r| == (if a < b then b - a else 0)
            && forall k :: 0 <= k < |r| ==> r[k] == s[a + k]
    ensures forall x :: x in r ==> x in s
    ensures size >= 0 ==> |r| <= size
    ensures 0 <= start && 0 <= size && start >= |s| ==> r == []
    ensures 0 <= start && 0 <= size && start + size <= |s| ==> r == s[start..start + size]
    ensures 0 <= start && 0 <= size && start < |s| < start + size ==> r == s[start..]
  {
    Slice(s, start, start + size)
  }

  datatype PageResult = PageResult(total: int, page: int, pageSize: int, items: seq<PdfItem>)

  /** The query after `(q || "").trim().toLowerCase()`. */
  function NormalizeQuery(q: Option<string>): string {
    ToLower(Trim(if q.Some? then q.value else ""))
  }

  /** The items a query keeps: all of them for a blank query, the matching ones otherwise. */
  function Filtered(items: seq<PdfItem>, q: Option<string>): seq<PdfItem> {
    var query := NormalizeQuery(q);
    if query != "" then FilterItems(items, query) else items
  }

  lemma PageStartNonNegative(page: int, pageSize: int)
    ensures page >= 1 && pageSize >= 0 ==> (page - 1) * pageSize >= 0
  {
  }

  /** `filterAndPaginate`: `total` counts the items the query keeps and `items` is page
      `page` of them, `pageSize` per page, counting pages from 1. */
  function FilterAndPaginate(items: seq<PdfItem>, q: Option<string>, page: int, pageSize: int)
    : (r: PageResult)
    ensures r.page == page && r.pageSize == pageSize
    ensures r.total == |Filtered(items, q)|
    ensures NormalizeQuery(q) == "" ==> r.total == |items|
    ensures forall x :: x in r.items ==> x in items
    ensures pageSize >= 0 ==> |r.items| <= pageSize
    ensures page >= 1 && pageSize >= 0 ==>
      var start := (page - 1) * pageSize;
      var filtered := Filtered(items, q);
      && start >= 0
      && (start >= r.total ==> r.items == [])
      && (start + pageSize <= r.total ==> r.items == filtered[start..start + pageSize])
      && (start < r.total < start + pageSize ==> r.items == filtered[start..])
  {
    var filtered := Filtered(items, q);
    var start := (page - 1) * pageSize;
    PageStartNonNegative(page, pageSize);
    PageResult(|filtered|, page, pageSize, Window(filtered, start, pageSize))
  }

  /** A window that ends at or before the start of the list counts from its end: it is
      empty when it ends at 0 (`slice(start, 0)`) or before the first element, and otherwise
      the run that ends `-(start + size)` items before the end, cut off at the front. */
  lemma WindowFromEnd<T>(s: seq<T>, start: int, size: int)
    requires 0 <= size && start + size <= 0
    ensures start + size == 0 || |s| + start + size <= 0 ==> Window(s, start, size) == []
    ensures start + size < 0 < |s| + start + size ==>
      Window(s, start, size) == s[(if |s| + start < 0 then 0 else |s| + start)..|s| + start + size]
  {
    if start + size < 0 < |s| + start + size {
      var w := Window(s, start, size);
      var t := s[(if |s| + start < 0 then 0 else |s| + start)..|s| + start + size];
      assert |w| == |t|;
      assert forall k :: 0 <= k < |w| ==> w[k] == t[k];
    }
  }

  /** A window of negative size from position 0 drops that many items from the end; from a
      negative start, or one at least as far out as the size is negative, it is empty. */
  lemma WindowNegativeSize<T>(s: seq<T>, start: int, size: int)
    requires size < 0
    ensures start == 0 ==> Window(s, start, size) == s[..if |s| + size < 0 then 0 else |s| + size]
    ensures start < 0 || start >= -size ==> Window(s, start, size) == []
  {
  }

  lemma PageBounds(page: int, pageSize: int)
    ensures page <= 0 && pageSize >= 0 ==> (page - 1) * pageSize + pageSize <= 0
    ensures page == 0 ==> (page - 1) * pageSize + pageSize == 0
    ensures page == 1 ==> (page - 1) * pageSize == 0
    ensures page > 1 && pageSize < 0 ==> (page - 1) * pageSize <= pageSize
    ensures page < 1 && pageSize < 0 ==> (page - 1) * pageSize >= -pageSize
  {
    if page > 1 && pageSize < 0 {
      assert (page - 1) * pageSize == pageSize + (page - 2) * pageSize;
      assert (page - 2) * pageSize <= 0;
    }
    if page < 1 && pageSize < 0 {
      assert (page - 1) * pageSize == -pageSize + page * pageSize;
      assert page * pageSize >= 0;
    }
  }

  lemma PageItems(items: seq<PdfItem>, q: Option<string>, page: int, pageSize: int)
    ensures FilterAndPaginate(items, q, page, pageSize)
         == PageResult(|Filtered(items, q)|, page, pageSize,
                       Window(Filtered(items, q), (page - 1) * pageSize, pageSize))
  {
  }

  /** `WindowFromEnd` for the window of page `page`, when the page is 0 or before. */
  lemma PageWindowFromEnd<T>(s: seq<T>, page: int, pageSize: int)
    requires page <= 0 && pageSize >= 0
    ensures var start := (page - 1) * pageSize;
            && (page == 0 ==> Window(s, start, pageSize) == [])
            && (|s| + start + pageSize <= 0 ==> Window(s, start, pageSize) == [])
            && (start + pageSize < 0 < |s| + start + pageSize ==>
                  Window(s, start, pageSize)
                  == s[(if |s| + start < 0 then 0 else |s| + start)..|s| + start + pageSize])
  {
    PageBounds(page, pageSize);
    WindowFromEnd(s, (page - 1) * pageSize, pageSize);
  }

  /** A page before the first reads `slice` with a negative start, so it counts from the end
      of the kept items: page 0 is empty, and page `-j` is the `j + 1`-th block of
      `pageSize` items from the end, cut off at the front. */
  lemma PageBeforeFirst(items: seq<PdfItem>, q: Option<string>, page: int, pageSize: int)
    requires page <= 0 && pageSize >= 0
    ensures var n := |Filtered(items, q)|;
            var start := (page - 1) * pageSize;
            var r := FilterAndPaginate(items, q, page, pageSize).items;
            && (page == 0 ==> r == [])
            && (n + start + pageSize <= 0 ==> r == [])
            && (start + pageSize < 0 < n + start + pageSize ==>
                  r == Filtered(items, q)[(if n + start < 0 then 0 else n + start)..n + start + pageSize])
  {
    PageItems(items, q, page, pageSize);
    PageWindowFromEnd(Filtered(items, q), page, pageSize);
  }

  /** A negative page size ends the slice before its start except on page 1, where it
      drops that many items from the end of the kept items. */
  lemma NegativePageSize(items: seq<PdfItem>, q: Option<string>, page: int, pageSize: int)
    requires pageSize < 0
    ensures var n := |Filtered(items, q)|;
            var r := FilterAndPaginate(items, q, page, pageSize).items;
            && (page != 1 ==> r == [])
            && (page == 1 ==> r == Filtered(items, q)[..if n + pageSize < 0 then 0 else n + pageSize])
  {
    PageItems(items, q, page, pageSize);
    PageBounds(page, pageSize);
    WindowNegativeSize(Filtered(items, q), (page - 1) * pageSize, pageSize);
  }

  /** Normalising a normalised query changes nothing. */
  lemma NormalizeQueryIdempotent(q: Option<string>)
    ensures NormalizeQuery(Some(NormalizeQuery(q))) == NormalizeQuery(q)
  {
    var raw := if q.Some? then q.value else "";
    var t := Trim(raw);
    TrimLower(t);
    TrimIdempotent(raw);
    ToLowerIdempotent(t);
  }

  /** Only the normalised query decides the page. */
  lemma SameQuerySamePage(items: seq<PdfItem>, q1: Option<string>, q2: Option<string>,
                          page: int, pageSize: int)
    requires NormalizeQuery(q1) == NormalizeQuery(q2)
    ensures FilterAndPaginate(items, q1, page, pageSize) == FilterAndPaginate(items, q2, page, pageSize)
  {
    assert Filtered(items, q1) == Filtered(items, q2);
    PageItems(items, q1, page, pageSize);
    PageItems(items, q2, page, pageSize);
  }

  /** The search ignores the case of the query: a lower-cased query finds the same page. */
  lemma SearchIgnoresQueryCase(items: seq<PdfItem>, q: string, page: int, pageSize: int)
    ensures FilterAndPaginate(items, Some(ToLower(q)), page, pageSize)
         == FilterAndPaginate(items, Some(q), page, pageSize)
  {
    TrimLower(q);
    ToLowerIdempotent(Trim(q));
    assert NormalizeQuery(Some(ToLower(q))) == NormalizeQuery(Some(q));
    SameQuerySamePage(items, Some(ToLower(q)), Some(q), page, pageSize);
  }

  /** The search ignores white space around the query. */
  lemma SearchIgnoresPadding(items: seq<PdfItem>, q: string, page: int, pageSize: int)
    ensures FilterAndPaginate(items, Some(Trim(q)), page, pageSize)
         == FilterAndPaginate(items, Some(q), page, pageSize)
  {
    TrimIdempotent(q);
    assert NormalizeQuery(Some(Trim(q))) == NormalizeQuery(Some(q));
    SameQuerySamePage(items, Some(Trim(q)), Some(q), page, pageSize);
  }
}

=== FILE: drive_browser.dfy ===
/** The single-folder lister behind the interactive browser (lib/drive-browser.ts): one
    request for the direct children of a folder, optionally narrowed by a name search,
    answered with the folders first and then the files, each group in name order. */
module DriveBrowser {
  import opened Wrappers
  import opened Sorting
  import Drive

  const DefaultPageSize := 30

  /** What the single-folder lister throws: no folder id, no key, or a response that is not ok. */
  datatype BrowseError =
    | MissingFolderId
    | MissingApiKey
    | Upstream(status: int, body: string)

  /** One child as the backend reports it. */
  datatype DriveItem = DriveItem(
    id: string,
    name: string,
    mimeType: string,
    modifiedTime: Option<string>,
    size: Option<string>)

  /** A child in the listing: the backend's fields plus whether it is a folder. */
  datatype BrowseItem = BrowseItem(
    id: string,
    name: string,
    mimeType: string,
    modifiedTime: Option<string>,
    size: Option<string>,
    isFolder: bool)

  datatype BrowseParams = BrowseParams(
    folderId: string,
    pageSize: Option<int>,
    pageToken: Option<string>,
    query: Option<string>)

  /** The parameters the one request carries; `allDrives` stands for the shared-drive flags. */
  datatype BrowseRequest = BrowseRequest(
    q: string,
    key: string,
    pageSize: int,
    pageToken: Option<string>,
    allDrives: bool)

  datatype BrowseResponse =
    | BrowseOk(files: seq<DriveItem>, nextPageToken: Option<string>)
    | BrowseNotOk(status: int, body: string)

  datatype Listing = Listing(items: seq<BrowseItem>, nextPageToken: Option<string>)

  function CountQuotes(s: string): nat {
    if s == [] then 0 else (if s[0] == '\'' then 1 else 0) + CountQuotes(s[1..])
  }

  /** `escapeSingleQuotes`: every `'` becomes `\'`; every other character is kept, in order. */
  function EscapeSingleQuotes(s: string): (r: string)
    ensures |r| == |s| + CountQuotes(s)
    ensures forall i :: 0 <= i < |r| && r[i] == '\'' ==> i > 0 && r[i - 1] == '\\'
    ensures r != [] ==> r[0] != '\''
  {
    if s == [] then []
    else
      var head := if s[0] == '\'' then "\\'" else [s[0]];
      var rest := EscapeSingleQuotes(s[1..]);
      assert forall i :: |head| <= i < |head| + |rest| ==> (head + rest)[i] == rest[i - |head|];
      head + rest
  }

  /** Deletes the backslash in front of each quote. */
  function Unescape(r: string): string {
    if r == [] then []
    else if |r| >= 2 && r[0] == '\\' && r[1] == '\'' then "'" + Unescape(r[2..])
    else [r[0]] + Unescape(r[1..])
  }

  /** Escaping loses nothing: deleting the inserted backslashes gives the term back. */
  lemma {:induction false} UnescapeEscape(s: string)
    ensures Unescape(EscapeSingleQuotes(s)) == s
  {
    if s != [] {
      var rest := EscapeSingleQuotes(s[1..]);
      UnescapeEscape(s[1..]);
      if s[0] == '\'' {
        assert EscapeSingleQuotes(s) == "\\'" + rest;
        assert ("\\'" + rest)[2..] == rest;
      } else {
        assert EscapeSingleQuotes(s) == [s[0]] + rest;
        assert ([s[0]] + rest)[1..] == rest;
        if s[0] == '\\' {
          assert rest == [] || rest[0] != '\'';
        }
      }
      assert s == [s[0]] + s[1..];
    }
  }

  /** The listing query without search: non-trashed PDFs and folders directly in `folderId`. */
  function BaseQuery(folderId: string): string {
    "'" + folderId + "' in parents and trashed=false and (mimeType='" + Drive.PdfMime
    + "' or mimeType='" + Drive.FolderMime + "')"
  }

  const SearchClause := " and name contains '"

  /** Whether a search term is given: present and non-empty. */
  predicate HasSearch(query: Option<string>) {
    query.Some? && query.value != ""
  }

  /** The `q` parameter: the base query, then a name clause holding the escaped term when a
      search term is given. */
  function BrowseQuery(folderId: string, query: Option<string>): (q: string)
    ensures BaseQuery(folderId) <= q
    ensures !HasSearch(query) <==> q == BaseQuery(folderId)
    ensures HasSearch(query) ==>
      q == BaseQuery(folderId) + SearchClause + EscapeSingleQuotes(query.value) + "'"
  {
    if HasSearch(query) then BaseQuery(folderId) + SearchClause + EscapeSingleQuotes(query.value) + "'"
    else BaseQuery(folderId)
  }

  /** Escaping works character by character from the front. */
  lemma EscapeCons(c: char, s: string)
    ensures EscapeSingleQuotes([c] + s) == (if c == '\'' then "\\'" else [c]) + EscapeSingleQuotes(s)
  {
    assert ([c] + s)[1..] == s;
  }

  /** A term without quotes is put into the query as it is. */
  lemma {:induction false} EscapeQuoteFree(s: string)
    requires '\'' !in s
    ensures EscapeSingleQuotes(s) == s
  {
    if s != [] {
      EscapeQuoteFree(s[1..]);
      EscapeCons(s[0], s[1..]);
      assert s == [s[0]] + s[1..];
    }
  }

  lemma EscapeOBrien()
    ensures EscapeSingleQuotes("O'Brien") == "O\\'Brien"
  {
    assert "O'Brien" == ['O'] + (['\''] + "Brien");
    EscapeQuoteFree("Brien");
    EscapeCons('\'', "Brien");
    EscapeCons('O', "'Brien");
    OBrienSpelling();
  }

  lemma OBrienSpelling()
    ensures ['O'] + ("\\'" + "Brien") == "O\\'Brien"
    ensures SearchClause + "O\\'Brien" + "'" == " and name contains 'O\\'Brien'"
  {
  }

  /** A name with a quote in it: the quote reaches the query escaped, so the clause still
      ends at the closing quote. */
  lemma OBrienQuery()
    ensures BrowseQuery("f", Some("O'Brien")) == BaseQuery("f") + " and name contains 'O\\'Brien'"
  {
    EscapeOBrien();
    var base := BaseQuery("f");
    assert BrowseQuery("f", Some("O'Brien")) == base + SearchClause + "O\\'Brien" + "'";
    OBrienSpelling();
    assert base + SearchClause + "O\\'Brien" + "'" == base + (SearchClause + "O\\'Brien" + "'");
  }

  /** Reads the search term back out of a query built for `folderId`. */
  function SearchTermOf(folderId: string, q: string): Option<string> {
    var base := BaseQuery(folderId) + SearchClause;
    if base <= q && |q| > |base| && q[|q| - 1] == '\'' then Some(Unescape(q[|base|..|q| - 1]))
    else None
  }

  /** The search term survives the trip into the query string, quotes and all. */
  lemma SearchTermRoundTrip(folderId: string, query: Option<string>)
    ensures SearchTermOf(folderId, BrowseQuery(folderId, query))
         == if HasSearch(query) then query else None
  {
    var q := BrowseQuery(folderId, query);
    var base := BaseQuery(folderId) + SearchClause;
    if HasSearch(query) {
      var e := EscapeSingleQuotes(query.value);
      assert q == base + e + "'";
      assert q[|base|..|q| - 1] == e;
      UnescapeEscape(query.value);
    } else {
      assert |q| < |base|;
    }
  }

  /** Checks and request building: an empty folder id is refused first, then a missing key;
      only then is a request formed. */
  function PrepareRequest(params: BrowseParams, apiKey: string): (r: Result<BrowseRequest, BrowseError>)
    ensures params.folderId == "" ==> r == Err(MissingFolderId)
    ensures params.folderId != "" && apiKey == "" ==> r == Err(MissingApiKey)
    ensures params.folderId != "" && apiKey != "" ==> r.Ok?
    ensures r.Ok? ==>
      && r.value.q == BrowseQuery(params.folderId, params.query)
      && r.value.key == apiKey
      && r.value.allDrives
      && r.value.pageSize == (if params.pageSize.Some? then params.pageSize.value else DefaultPageSize)
      && (r.value.pageToken.Some? <==> params.pageToken.Some? && params.pageToken.value != "")
      && (r.value.pageToken.Some? ==> r.value.pageToken == params.pageToken)
  {
    if params.folderId == "" then Err(MissingFolderId)
    else if apiKey == "" then Err(MissingApiKey)
    else
      var pageSize := if params.pageSize.Some? then params.pageSize.value else DefaultPageSize;
      var token := if params.pageToken.Some? && params.pageToken.value != "" then params.pageToken else None;
      Ok(BrowseRequest(BrowseQuery(params.folderId, params.query), apiKey, pageSize, token, true))
  }

  /** The search term a prepared request was built from can be read back out of its query. */
  lemma PreparedQueryCarriesSearch(params: BrowseParams, apiKey: string)
    requires PrepareRequest(params, apiKey).Ok?
    ensures SearchTermOf(params.folderId, PrepareRequest(params, apiKey).value.q)
         == if HasSearch(params.query) then params.query else None
  {
    SearchTermRoundTrip(params.folderId, params.query);
  }

  predicate IsFolder(f: DriveItem) {
    f.mimeType == Drive.FolderMime
  }

  /** The sort comparator: a folder before a non-folder, otherwise by name. */
  predicate FolderFirstLe(a: DriveItem, b: DriveItem) {
    if IsFolder(a) != IsFolder(b) then IsFolder(a) else NameLe(a.name, b.name)
  }

  lemma FolderFirstLeIsTotalPreorder()
    ensures TotalPreorder(FolderFirstLe)
  {
    forall a: DriveItem, b: DriveItem
      ensures FolderFirstLe(a, b) || FolderFirstLe(b, a)
    {
      NameLeTotal(a.name, b.name);
    }
    forall a: DriveItem, b: DriveItem, c: DriveItem | FolderFirstLe(a, b) && FolderFirstLe(b, c)
      ensures FolderFirstLe(a, c)
    {
      if IsFolder(a) == IsFolder(b) == IsFolder(c) {
        NameLeTransitive(a.name, b.name, c.name);
      }
    }
  }

  function Mark(f: DriveItem): BrowseItem {
    BrowseItem(f.id, f.name, f.mimeType, f.modifiedTime, f.size, IsFolder(f))
  }

  /** `sorted.map(...)`: every field copied, plus `isFolder`. */
  function MarkAll(fs: seq<DriveItem>): (r: seq<BrowseItem>)
    ensures |r| == |fs|
    ensures forall i :: 0 <= i < |fs| ==> r[i] == Mark(fs[i])
  {
    if fs == [] then [] else [Mark(fs[0])] + MarkAll(fs[1..])
  }

  /** The item a listing entry was made from. */
  function Unmark(b: BrowseItem): DriveItem {
    DriveItem(b.id, b.name, b.mimeType, b.modifiedTime, b.size)
  }

  /** A well-formed entry: its flag agrees with its type. */
  predicate Consistent(b: BrowseItem) {
    b.isFolder == (b.mimeType == Drive.FolderMime)
  }

  /** An entry is the marking of an item exactly when it is consistent and unmarks to it. */
  lemma MarkUnmark(f: DriveItem, b: BrowseItem)
    ensures Mark(f) == b <==> Consistent(b) && Unmark(b) == f
  {
  }

  lemma {:induction false} MarkAllCount(fs: seq<DriveItem>, b: BrowseItem)
    ensures multiset(MarkAll(fs))[b] == if Consistent(b) then multiset(fs)[Unmark(b)] else 0
  {
    if fs != [] {
      MarkAllCount(fs[1..], b);
      MarkUnmark(fs[0], b);
      MarkAllCons(fs);
    }
  }

  lemma MarkAllCons(fs: seq<DriveItem>)
    requires fs != []
    ensures multiset(fs) == multiset{fs[0]} + multiset(fs[1..])
    ensures multiset(MarkAll(fs)) == multiset{Mark(fs[0])} + multiset(MarkAll(fs[1..]))
  {
    assert fs == [fs[0]] + fs[1..];
    assert MarkAll(fs) == [Mark(fs[0])] + MarkAll(fs[1..]);
  }

  /** Marking two rearrangements of the same items gives rearrangements of each other. */
  lemma MarkAllPermutation(a: seq<DriveItem>, b: seq<DriveItem>)
    requires multiset(a) == multiset(b)
    ensures multiset(MarkAll(a)) == multiset(MarkAll(b))
  {
    forall x: BrowseItem
      ensures multiset(MarkAll(a))[x] == multiset(MarkAll(b))[x]
    {
      MarkAllCount(a, x);
      MarkAllCount(b, x);
    }
  }

  /** Every folder comes before every non-folder. */
  predicate FoldersFirst(items: seq<BrowseItem>) {
    forall i, j :: 0 <= i < j < |items| && items[j].isFolder ==> items[i].isFolder
  }

  /** Among the folders, and among the rest, names never decrease. */
  predicate NamesOrderedWithinGroups(items: seq<BrowseItem>) {
    forall i, j :: 0 <= i < j < |items| && items[i].isFolder == items[j].isFolder ==>
      NameLe(items[i].name, items[j].name)
  }

  /** The response handling: a failed response throws with its status; otherwise the files
      are sorted folders first and by name, marked, and returned with the backend's token. */
  function ProcessResponse(resp: BrowseResponse): (r: Result<Listing, BrowseError>)
    ensures resp.BrowseNotOk? ==> r == Err(Upstream(resp.status, resp.body))
    ensures resp.BrowseOk? ==> r.Ok? && r.value.nextPageToken == resp.nextPageToken
    ensures resp.BrowseOk? ==> multiset(r.value.items) == multiset(MarkAll(resp.files))
    ensures r.Ok? ==> forall i :: 0 <= i < |r.value.items| ==> Consistent(r.value.items[i])
    ensures r.Ok? ==> FoldersFirst(r.value.items) && NamesOrderedWithinGroups(r.value.items)
  {
    match resp
    case BrowseNotOk(status, body) => Err(Upstream(status, body))
    case BrowseOk(files, token) =>
      FolderFirstLeIsTotalPreorder();
      var sorted := SortBy(files, FolderFirstLe);
      MarkAllPermutation(sorted, files);
      Ok(Listing(MarkAll(sorted), token))
  }

  /** `listDriveChildren`: the checks, the one request to `backend`, and the response handling. */
  function ListDriveChildren(params: BrowseParams, apiKey: string, backend: BrowseRequest -> BrowseResponse)
    : (r: Result<Listing, BrowseError>)
    ensures params.folderId == "" ==> r == Err(MissingFolderId)
    ensures params.folderId != "" && apiKey == "" ==> r == Err(MissingApiKey)
    ensures params.folderId != "" && apiKey != "" ==>
      var resp := backend(PrepareRequest(params, apiKey).value);
      (r.Ok? <==> resp.BrowseOk?)
      && (r.Ok? ==> r.value.nextPageToken == resp.nextPageToken
                    && multiset(r.value.items) == multiset(MarkAll(resp.files))
                    && FoldersFirst(r.value.items) && NamesOrderedWithinGroups(r.value.items))
      && (r.Err? ==> r.error == Upstream(resp.status, resp.body))
  {
    match PrepareRequest(params, apiKey)
    case Err(e) => Err(e)
    case Ok(req) => ProcessResponse(backend(req))
  }
}

=== FILE: drive_scenario.dfy ===
/** A concrete folder tree worked through the listing: the root holds the folder "Sutras"
    (which holds "Kalpa.pdf") and the file "Readme.pdf". */
module DriveScenario {
  import opened Wrappers
  import opened Drive
  import opened Sorting

  const Sutras := RemoteFile("sutras", "Sutras", FolderMime, ["root"], None, None, None)
  const Readme := RemoteFile("readme", "Readme.pdf", PdfMime, ["root"], None, None, Some("10"))
  const Kalpa := RemoteFile("kalpa", "Kalpa.pdf", PdfMime, ["sutras"], None, None, None)

  /** Answers one page per folder. */
  function TreeBackend(req: ListRequest): ListResponse {
    if req.q == WalkQuery("root") then ListOk(FilePage([Sutras, Readme], None))
    else if req.q == WalkQuery("sutras") then ListOk(FilePage([Kalpa], None))
    else ListOk(FilePage([], None))
  }

  lemma QueriesDiffer()
    ensures WalkQuery("root") != WalkQuery("sutras")
  {
    assert WalkQuery("root")[1] != WalkQuery("sutras")[1];
  }

  /** The single pages the root and "Sutras" are listed in. */
  const RP := [FilePage([Sutras, Readme], None)]
  const SP := [FilePage([Kalpa], None)]

  const ReadmeItem := PdfItem("readme", "Readme.pdf", "", None, None, Some("10"))
  const KalpaItem := PdfItem("kalpa", "Kalpa.pdf", "Sutras", None, None, None)
  const RootMap := map["root" := FolderNode("root", RootName, None)]
  const TreeMap := RootMap["sutras" := FolderNode("sutras", "Sutras", Some("root"))]

  lemma FetchRoot()
    ensures FetchFolder(TreeBackend, "key", "root", "", 10) == Ok(RP)
  {
  }

  lemma FetchSutras()
    ensures FetchFolder(TreeBackend, "key", "sutras", "", 9) == Ok(SP)
  {
    QueriesDiffer();
  }

  /** The root's first record registers "Sutras" and queues it. */
  lemma SutrasRegistered()
    ensures ProcessFile(WalkState("root", [], RootMap, [], ["root"], [], [RP]), Sutras)
         == WalkState("root", ["sutras"], TreeMap, [], ["root"], [Sutras], [RP])
  {
  }

  /** The root's second record collects "Readme.pdf" with the empty path. */
  lemma ReadmeCollected()
    ensures ProcessFile(WalkState("root", ["sutras"], TreeMap, [], ["root"], [Sutras], [RP]), Readme)
         == WalkState("root", ["sutras"], TreeMap, [ReadmeItem], ["root"], [Sutras, Readme], [RP])
  {
    assert AncestorIds("root", TreeMap, {}) == [];
    assert BuildPath(Some("root"), TreeMap) == "";
  }

  lemma ListRootStep()
    ensures ProcessFiles(WalkState("root", [], RootMap, [], ["root"], [], [RP]), [Sutras, Readme])
         == WalkState("root", ["sutras"], TreeMap, [ReadmeItem], ["root"], [Sutras, Readme], [RP])
  {
    var t0 := WalkState("root", [], RootMap, [], ["root"], [], [RP]);
    var ta := WalkState("root", ["sutras"], TreeMap, [], ["root"], [Sutras], [RP]);
    var tb := WalkState("root", ["sutras"], TreeMap, [ReadmeItem], ["root"], [Sutras, Readme], [RP]);
    SutrasRegistered();
    ReadmeCollected();
    assert [Sutras, Readme][1..] == [Readme];
    assert ProcessFiles(t0, [Sutras, Readme]) == ProcessFiles(ta, [Readme]);
    assert ProcessFiles(ta, [Readme]) == ProcessFiles(tb, []) == tb;
  }

  lemma ListSutrasStep()
    ensures ProcessFiles(WalkState("root", [], TreeMap, [ReadmeItem], ["root", "sutras"], [Sutras, Readme], [RP, SP]), [Kalpa])
         == WalkState("root", [], TreeMap, [ReadmeItem, KalpaItem], ["root", "sutras"], [Sutras, Readme, Kalpa], [RP, SP])
  {
    assert AncestorIds("root", TreeMap, {"sutras"}) == [];
    assert AncestorIds("sutras", TreeMap, {}) == ["sutras"];
    assert BuildPath(Some("sutras"), TreeMap) == "Sutras";
  }

  const S1 := WalkState("root", ["sutras"], TreeMap, [ReadmeItem], ["root"], [Sutras, Readme], [RP])
  const S2 := WalkState("root", [], TreeMap, [ReadmeItem, KalpaItem], ["root", "sutras"], [Sutras, Readme, Kalpa], [RP, SP])

  /** After the root is listed, its records leave "Sutras" queued and "Readme.pdf" collected. */
  lemma RootRound()
    ensures var s0 := StartWalk("root");
      ProcessFiles(s0.(queue := s0.queue[1..], visited := s0.visited + [s0.queue[0]],
                       listings := s0.listings + [RP]), FilesOf(RP)) == S1
  {
    var s0 := StartWalk("root");
    assert s0.(queue := s0.queue[1..], visited := s0.visited + [s0.queue[0]], listings := s0.listings + [RP])
        == WalkState("root", [], RootMap, [], ["root"], [], [RP]);
    assert FilesOf(RP) == [Sutras, Readme];
    ListRootStep();
  }

  /** After "Sutras" is listed, "Kalpa.pdf" is collected with the path "Sutras". */
  lemma SutrasRound()
    ensures ProcessFiles(S1.(queue := S1.queue[1..], visited := S1.visited + [S1.queue[0]],
                             listings := S1.listings + [SP]), FilesOf(SP)) == S2
  {
    assert S1.(queue := S1.queue[1..], visited := S1.visited + [S1.queue[0]], listings := S1.listings + [SP])
        == WalkState("root", [], TreeMap, [ReadmeItem], ["root", "sutras"], [Sutras, Readme], [RP, SP]);
    assert FilesOf(SP) == [Kalpa];
    ListSutrasStep();
  }

  lemma RunRootStep()
    ensures RunQueue(TreeBackend, "key", StartWalk("root"), 10) == RunQueue(TreeBackend, "key", S1, 9)
  {
    FetchRoot();
    RootRound();
    RunQueueStep(TreeBackend, "key", StartWalk("root"), RP, 10);
  }

  lemma RunSutrasStep()
    ensures RunQueue(TreeBackend, "key", S1, 9) == RunQueue(TreeBackend, "key", S2, 8)
  {
    FetchSutras();
    SutrasRound();
    RunQueueStep(TreeBackend, "key", S1, SP, 9);
  }

  lemma ScenarioWalk()
    ensures Walk(TreeBackend, "key", "root", 10) == Ok(S2)
  {
    RunRootStep();
    RunSutrasStep();
    assert RunQueue(TreeBackend, "key", S2, 8) == Ok(S2);
  }

  /** Sorting by name puts "Kalpa.pdf" before "Readme.pdf". */
  lemma ScenarioSort()
    ensures TotalPreorder(ItemLe)
      && SortBy([ReadmeItem, KalpaItem], ItemLe) == [KalpaItem, ReadmeItem]
  {
    ItemLeIsTotalPreorder();
    assert SortBy([KalpaItem], ItemLe) == [KalpaItem] by {
      assert [KalpaItem][1..] == [];
    }
    assert [ReadmeItem, KalpaItem][1..] == [KalpaItem];
    assert SortBy([ReadmeItem, KalpaItem], ItemLe) == Insert(ReadmeItem, [KalpaItem], ItemLe);
    ReadmeAfterKalpa();
  }

  /** "Readme.pdf" goes after "Kalpa.pdf". */
  lemma ReadmeAfterKalpa()
    ensures TotalPreorder(ItemLe) && Insert(ReadmeItem, [KalpaItem], ItemLe) == [KalpaItem, ReadmeItem]
  {
    ItemLeIsTotalPreorder();
    assert !ItemLe(ReadmeItem, KalpaItem) by {
      assert "Readme.pdf"[0] == 'R' && "Kalpa.pdf"[0] == 'K';
    }
    assert [KalpaItem][1..] == [];
    assert Insert(ReadmeItem, [KalpaItem], ItemLe) == [KalpaItem] + Insert(ReadmeItem, [], ItemLe);
  }

  /** The walk finds both PDFs, "Kalpa.pdf" with path "Sutras" and "Readme.pdf" at the top,
      and returns them sorted by name. */
  lemma ScenarioListing()
    ensures ListAllPdfsRecursively(EmptyCache, "key", TreeBackend, "root", 0, 5, 10).result
      == Ok([KalpaItem, ReadmeItem])
  {
    ScenarioWalk();
    ScenarioSort();
    assert S2.collected == [ReadmeItem, KalpaItem];
  }

  /** A page far past the end is empty and the total still counts every item. */
  lemma PagePastEnd(items: seq<PdfItem>)
    requires |items| == 5
    ensures FilterAndPaginate(items, None, 100, 12) == PageResult(5, 100, 12, [])
  {
  }
}

=== FILE: folder_browser.dfy ===
/** Navigation in the folder browser (components/folder-browser.tsx): the breadcrumb trail
    with the folder shown, and the stack of page tokens behind the Previous/Next buttons. */
module FolderBrowser {
  import opened Wrappers

  /** The root crumb's name and the page size when the caller passes none. */
  const DefaultTitle := "Root"
  const DefaultPageSize := 30

  datatype Crumb = Crumb(id: string, name: string)

  /** The breadcrumb trail and the id of the folder shown. */
  datatype Nav = Nav(crumbs: seq<Crumb>, current: string)

  /** The trail starts at `root` and the folder shown is its last crumb. */
  predicate Anchored(s: Nav, root: Crumb) {
    |s.crumbs| >= 1 && s.crumbs[0] == root && s.current == s.crumbs[|s.crumbs| - 1].id
  }

  /** The browser as first shown: the root alone, titled `title`, or "Root" when no title is
      passed. */
  function InitialNav(rootFolderId: string, title: Option<string>): (s: Nav)
    ensures Anchored(s, Crumb(rootFolderId, if title.Some? then title.value else DefaultTitle))
    ensures |s.crumbs| == 1
  {
    Nav([Crumb(rootFolderId, if title.Some? then title.value else DefaultTitle)], rootFolderId)
  }

  /** `navigateToFolder`: opens a child folder, adding one crumb at the end. */
  function NavigateToFolder(s: Nav, folderId: string, folderName: string): (s': Nav)
    ensures |s'.crumbs| == |s.crumbs| + 1
    ensures s'.crumbs[..|s.crumbs|] == s.crumbs
    ensures s'.crumbs[|s.crumbs|] == Crumb(folderId, folderName)
    ensures s'.current == folderId
    ensures forall root :: Anchored(s, root) ==> Anchored(s', root)
  {
    var s' := Nav(s.crumbs + [Crumb(folderId, folderName)], folderId);
    assert s'.crumbs[..|s.crumbs|] == s.crumbs;
    s'
  }

  /** `navigateToBreadcrumb`: jumps back to crumb `index`, dropping the crumbs after it.
      An index without a crumb throws (reading `.id` of undefined): `None`. */
  function NavigateToBreadcrumb(s: Nav, index: int): (r: Option<Nav>)
    ensures r.Some? <==> 0 <= index < |s.crumbs|
    ensures r.Some? ==> r.value.crumbs == s.crumbs[..index + 1] && r.value.current == s.crumbs[index].id
    ensures forall root :: Anchored(s, root) && r.Some? ==> Anchored(r.value, root)
  {
    if 0 <= index < |s.crumbs| then Some(Nav(s.crumbs[..index + 1], s.crumbs[index].id))
    else None
  }

  /** `goBack`: drops the last crumb and shows the one before; nothing happens at the root. */
  function GoBack(s: Nav): (s': Nav)
    ensures |s.crumbs| <= 1 ==> s' == s
    ensures |s.crumbs| > 1 ==>
      s'.crumbs == s.crumbs[..|s.crumbs| - 1] && s'.current == s.crumbs[|s.crumbs| - 2].id
    ensures forall root :: Anchored(s, root) ==> Anchored(s', root)
  {
    if |s.crumbs| > 1 then Nav(s.crumbs[..|s.crumbs| - 1], s.crumbs[|s.crumbs| - 2].id) else s
  }

  /** Jumping to the last crumb changes nothing. */
  lemma JumpToLastIsNoOp(s: Nav, root: Crumb)
    requires Anchored(s, root)
    ensures NavigateToBreadcrumb(s, |s.crumbs| - 1) == Some(s)
  {
    assert s.crumbs[..|s.crumbs|] == s.crumbs;
  }

  /** Going back undoes opening a folder, and so does jumping to the crumb that was last. */
  lemma BackUndoesNavigate(s: Nav, root: Crumb, folderId: string, folderName: string)
    requires Anchored(s, root)
    ensures GoBack(NavigateToFolder(s, folderId, folderName)) == s
    ensures NavigateToBreadcrumb(NavigateToFolder(s, folderId, folderName), |s.crumbs| - 1) == Some(s)
  {
    var t := NavigateToFolder(s, folderId, folderName);
    assert t.crumbs[..|t.crumbs| - 1] == s.crumbs;
  }

  /** Going back is jumping to the next-to-last crumb. */
  lemma BackIsJumpToPrevious(s: Nav)
    requires |s.crumbs| > 1
    ensures NavigateToBreadcrumb(s, |s.crumbs| - 2) == Some(GoBack(s))
  {
  }

  /** The tokens of the pages visited before the current one; the top is the current page's. */
  type TokenStack = seq<string>

  /** `pageTokenStack[pageTokenStack.length - 1]` */
  function CurrentToken(stack: TokenStack): (r: Option<string>)
    ensures r.Some? <==> |stack| > 0
    ensures r.Some? ==> r.value == stack[|stack| - 1]
  {
    if |stack| > 0 then Some(stack[|stack| - 1]) else None
  }

  /** A next-page token the browser acts on: present and non-empty. */
  predicate HasNext(next: Option<string>) {
    next.Some? && next.value != ""
  }

  /** `onNext`: pushes the listing's next-page token, if it has one. */
  function OnNext(stack: TokenStack, next: Option<string>): (r: TokenStack)
    ensures HasNext(next) ==> |r| == |stack| + 1 && r[..|stack|] == stack && CurrentToken(r) == next
    ensures !HasNext(next) ==> r == stack
  {
    if HasNext(next) then
      var r := stack + [next.value];
      assert r[..|stack|] == stack;
      r
    else stack
  }

  /** `onPrev`: `s.slice(0, -1)`, which is empty for an empty stack. */
  function OnPrev(stack: TokenStack): (r: TokenStack)
    ensures |stack| == 0 ==> r == []
    ensures |stack| > 0 ==> |r| == |stack| - 1 && stack == r + [stack[|stack| - 1]]
  {
    if |stack| == 0 then [] else stack[..|stack| - 1]
  }

  /** No token on the stack is empty. */
  predicate TokensNonEmpty(stack: TokenStack) {
    forall i :: 0 <= i < |stack| ==> stack[i] != ""
  }

  /** Previous undoes Next, and both keep every stacked token non-empty. */
  lemma PrevUndoesNext(stack: TokenStack, next: Option<string>)
    requires TokensNonEmpty(stack)
    ensures TokensNonEmpty(OnNext(stack, next)) && TokensNonEmpty(OnPrev(stack))
    ensures HasNext(next) ==> OnPrev(OnNext(stack, next)) == stack
  {
    if HasNext(next) {
      assert (stack + [next.value])[..|stack|] == stack;
    }
  }

  /** The list view: the folder shown and its token stack. */
  datatype GridView = GridView(folderId: string, stack: TokenStack)

  /** Showing another folder clears the token stack; the same folder keeps it. */
  function ShowFolder(g: GridView, folderId: string): (g': GridView)
    ensures g'.folderId == folderId
    ensures folderId != g.folderId ==> g'.stack == []
    ensures folderId == g.folderId ==> g' == g
  {
    if folderId != g.folderId then GridView(folderId, []) else g
  }

  /** The parameters of the children request. */
  datatype ChildrenRequest = ChildrenRequest(
    folderId: string,
    pageSize: int,
    pageToken: Option<string>,
    q: Option<string>)

  /** The request key: the folder and page size (30 when none is passed) always, the current
      token when it is set, the search when it is not empty. */
  function RequestKey(g: GridView, pageSize: Option<int>, search: string): (r: ChildrenRequest)
    ensures r.folderId == g.folderId
    ensures r.pageSize == if pageSize.Some? then pageSize.value else DefaultPageSize
    ensures r.pageToken.Some? <==> |g.stack| > 0 && g.stack[|g.stack| - 1] != ""
    ensures r.pageToken.Some? ==> r.pageToken == CurrentToken(g.stack)
    ensures r.q.Some? <==> search != ""
    ensures r.q.Some? ==> r.q.value == search
  {
    var token := CurrentToken(g.stack);
    ChildrenRequest(g.folderId, if pageSize.Some? then pageSize.value else DefaultPageSize,
                    if token.Some? && token.value != "" then token else None,
                    if search != "" then Some(search) else None)
  }

  /** With only non-empty tokens stacked, the key carries a page token exactly when the stack
      is not empty. */
  lemma KeyHasTokenIffStacked(g: GridView, pageSize: Option<int>, search: string)
    requires TokensNonEmpty(g.stack)
    ensures RequestKey(g, pageSize, search).pageToken.Some? <==> |g.stack| > 0
  {
  }

  /** The Previous/Next bar under a loaded page: absent when the page has no items (the view
      shows "No items found" instead), otherwise shown when there is a page before or after;
      Previous is off on the first page and Next when there is no next token. */
  datatype PagerButtons = PagerButtons(prevDisabled: bool, nextDisabled: bool)

  function PagerView(hasItems: bool, stack: TokenStack, next: Option<string>): (r: Option<PagerButtons>)
    ensures r.Some? <==> hasItems && (|stack| > 0 || HasNext(next))
    ensures r.Some? ==> (r.value.prevDisabled <==> |stack| == 0)
    ensures r.Some? ==> (r.value.nextDisabled <==> !HasNext(next))
  {
    if !hasItems then None
    else if |stack| > 0 || HasNext(next) then Some(PagerButtons(|stack| == 0, !HasNext(next)))
    else None
  }

  /** A button that is not disabled changes the page; a disabled one would not. */
  lemma EnabledPagerButtonsMove(hasItems: bool, stack: TokenStack, next: Option<string>)
    requires PagerView(hasItems, stack, next).Some?
    ensures !PagerView(hasItems, stack, next).value.prevDisabled <==> OnPrev(stack) != stack
    ensures !PagerView(hasItems, stack, next).value.nextDisabled <==> OnNext(stack, next) != stack
  {
  }
}

=== FILE: pdf_grid.dfy ===
/** Paging in the PDF grid (components/pdf-grid.tsx): the page count, the Prev/Next
    clamping, the reset to page 1 on a new search, and the window of page buttons with "..."
    where pages are skipped. */
module PdfGrid {
  import opened Wrappers

  /** Items per grid page. */
  const GridPageSize := 12
  /** How many neighbours of the current page get a button on each side. */
  const Delta := 1

  /** `Math.max(1, Math.ceil(total / pageSize))`: enough pages for `total` items, at least one. */
  function TotalPages(total: int, pageSize: int): (r: int)
    requires pageSize > 0
    ensures r >= 1
    ensures total <= r * pageSize
    ensures r == 1 || (r - 1) * pageSize < total
  {
    var c := -((-total) / pageSize);
    CeilBounds(total, pageSize);
    if c > 1 then c else 1
  }

  lemma CeilBounds(total: int, pageSize: int)
    requires pageSize > 0
    ensures var c := -((-total) / pageSize); total <= c * pageSize && (c - 1) * pageSize < total
  {
    var q := (-total) / pageSize;
    var m := (-total) % pageSize;
    assert -total == q * pageSize + m && 0 <= m < pageSize;
    assert (-q) * pageSize == total + m;
    assert (-q - 1) * pageSize == total + m - pageSize;
  }

  /** `setPage(p => Math.max(1, p - 1))` */
  function Prev(page: int): (r: int)
    ensures r >= 1
    ensures page > 1 ==> r == page - 1
    ensures page <= 1 ==> r == 1
  {
    if page - 1 > 1 then page - 1 else 1
  }

  /** `setPage(p => Math.min(totalPages, p + 1))` */
  function Next(page: int, totalPages: int): (r: int)
    ensures r <= totalPages
    ensures page < totalPages ==> r == page + 1
    ensures page >= totalPages ==> r == totalPages
  {
    if page + 1 < totalPages then page + 1 else totalPages
  }

  /** Prev and Next keep a page inside `[1, totalPages]`, and undo each other away from the ends. */
  lemma PrevNextStayInRange(page: int, totalPages: int)
    requires 1 <= page <= totalPages
    ensures 1 <= Prev(page) <= totalPages && 1 <= Next(page, totalPages) <= totalPages
    ensures page < totalPages ==> Prev(Next(page, totalPages)) == page
    ensures page > 1 ==> Next(Prev(page), totalPages) == page
  {
  }

  /** The grid's paging state: the search box, the debounced search sent to the server,
      and the page shown. */
  datatype GridState = GridState(query: string, debounced: string, page: int)

  /** An empty box and search on page 1. */
  const InitialGrid := GridState("", "", 1)

  /** The debounce timer fires: the search sent to the server catches up with the box, and the
      page goes back to 1 when that search changed. */
  function Debounce(s: GridState): (s': GridState)
    ensures s'.query == s.query && s'.debounced == s.query
    ensures s.debounced != s.query ==> s'.page == 1
    ensures s.debounced == s.query ==> s' == s
  {
    if s.debounced == s.query then s else GridState(s.query, s.query, 1)
  }

  /** The Clear button empties the box and the search at once. */
  function Clear(s: GridState): (s': GridState)
    ensures s'.query == "" && s'.debounced == ""
    ensures s.debounced != "" ==> s'.page == 1
    ensures s.debounced == "" ==> s'.page == s.page
  {
    GridState("", "", if s.debounced != "" then 1 else s.page)
  }

  /** The parameters of the list request the grid sends. */
  datatype GridRequest = GridRequest(q: Option<string>, page: int, pageSize: int)

  function GridRequestOf(s: GridState): (r: GridRequest)
    ensures r.q.Some? <==> s.debounced != ""
    ensures r.q.Some? ==> r.q.value == s.debounced
    ensures r.page == s.page && r.pageSize == GridPageSize
  {
    GridRequest(if s.debounced != "" then Some(s.debounced) else None, s.page, GridPageSize)
  }

  /** The grid opens on page 1 with no search, which the timer leaves alone. */
  lemma InitialGridRequest()
    ensures GridRequestOf(InitialGrid) == GridRequest(None, 1, GridPageSize)
    ensures Debounce(InitialGrid) == InitialGrid
  {
  }

  /** Firing the timer a second time changes nothing; after it fires on a changed search, the
      request asks for page 1 with the new term (none when the box is empty). */
  lemma DebounceSettles(s: GridState)
    ensures Debounce(Debounce(s)) == Debounce(s)
    ensures s.debounced != s.query ==>
      GridRequestOf(Debounce(s)) == GridRequest(if s.query != "" then Some(s.query) else None, 1, GridPageSize)
  {
  }

  /** Clearing twice is clearing once and leaves the timer nothing to do; the request that
      follows carries no search term and asks for page 1 whenever a search was active. */
  lemma ClearSettles(s: GridState)
    ensures Clear(Clear(s)) == Clear(s) && Debounce(Clear(s)) == Clear(s)
    ensures GridRequestOf(Clear(s)).q.None?
    ensures s.debounced != "" ==> GridRequestOf(Clear(s)).page == 1
  {
  }

  /** One entry of the button row: a page number or an ellipsis. */
  datatype PageEntry = Num(n: int) | Ellipsis

  predicate StrictlyIncreasing(xs: seq<int>) {
    forall i, j :: 0 <= i < j < |xs| ==> xs[i] < xs[j]
  }

  /** `lo, lo + 1, …, hi` */
  function Range(lo: int, hi: int): (r: seq<int>)
    ensures forall y :: y in r <==> lo <= y <= hi
    ensures StrictlyIncreasing(r)
    decreases hi - lo + 1
  {
    if lo > hi then []
    else
      var rest := Range(lo + 1, hi);
      assert forall k :: 0 <= k < |rest| ==> rest[k] in rest;
      [lo] + rest
  }

  /** Adds `x` to a strictly increasing sequence unless it is already there. */
  function InsertSorted(x: int, xs: seq<int>): (r: seq<int>)
    requires StrictlyIncreasing(xs)
    ensures StrictlyIncreasing(r)
    ensures forall y :: y in r <==> y in xs || y == x
  {
    if xs == [] then [x]
    else if x < xs[0] then [x] + xs
    else if x == xs[0] then xs
    else
      var rest := InsertSorted(x, xs[1..]);
      assert forall y :: y in xs <==> y == xs[0] || y in xs[1..];
      assert forall k :: 0 <= k < |rest| ==> rest[k] in rest;
      assert forall y :: y in xs[1..] ==> xs[0] < y;
      [xs[0]] + rest
  }

  /** `Array.from(new Set(xs)).sort((a, b) => a - b)`: the distinct values of `xs` ascending. */
  function SortedDistinct(xs: seq<int>): (r: seq<int>)
    ensures StrictlyIncreasing(r)
    ensures forall y :: y in r <==> y in xs
  {
    if xs == [] then []
    else
      var rest := SortedDistinct(xs[1..]);
      assert forall y :: y in xs <==> y == xs[0] || y in xs[1..];
      InsertSorted(xs[0], rest)
  }

  /** The page numbers of a button row. */
  function Numbers(entries: seq<PageEntry>): seq<int> {
    if entries == [] then []
    else (if entries[0].Num? then [entries[0].n] else []) + Numbers(entries[1..])
  }

  predicate AllPositive(xs: seq<int>) {
    forall i :: 0 <= i < |xs| ==> xs[i] > 0
  }

  /** The loop of `visiblePages`: each number is preceded by "..." when the previous number is
      set (non-zero) and more than one below it. */
  function WithEllipses(arr: seq<int>, prev: int): (r: seq<PageEntry>)
    ensures Numbers(r) == arr
    ensures r == [] <==> arr == []
    ensures |r| <= 2 * |arr|
    ensures arr != [] && prev == 0 ==> |r| <= 2 * |arr| - 1
    decreases |arr|
  {
    if arr == [] then []
    else
      var p := arr[0];
      var rest := WithEllipses(arr[1..], p);
      assert arr == [p] + arr[1..];
      NumbersPrepend(p, rest);
      if prev != 0 && p - prev > 1 then [Ellipsis, Num(p)] + rest else [Num(p)] + rest
  }

  lemma NumbersPrepend(p: int, rest: seq<PageEntry>)
    ensures Numbers([Num(p)] + rest) == [p] + Numbers(rest)
    ensures Numbers([Ellipsis, Num(p)] + rest) == [p] + Numbers(rest)
  {
    assert ([Num(p)] + rest)[1..] == rest;
    assert ([Ellipsis, Num(p)] + rest)[1..] == [Num(p)] + rest;
  }

  /** Every "..." stands between two numbers more than one apart. */
  predicate EllipsesJustified(r: seq<PageEntry>) {
    forall i :: 0 < i < |r| && r[i] == Ellipsis ==>
      i + 1 < |r| && r[i - 1].Num? && r[i + 1].Num? && r[i + 1].n - r[i - 1].n > 1
  }

  /** Two numbers side by side are at most one apart. */
  predicate NoHiddenGap(r: seq<PageEntry>) {
    forall i :: 0 <= i < |r| - 1 && r[i].Num? && r[i + 1].Num? ==> r[i + 1].n - r[i].n <= 1
  }

  /** The first entries of the row: "..." if called for, then the first number. */
  function Lead(arr: seq<int>, prev: int): seq<PageEntry>
    requires arr != []
  {
    if prev != 0 && arr[0] - prev > 1 then [Ellipsis, Num(arr[0])] else [Num(arr[0])]
  }

  lemma WithEllipsesUnfold(arr: seq<int>, prev: int)
    requires arr != []
    ensures WithEllipses(arr, prev) == Lead(arr, prev) + WithEllipses(arr[1..], arr[0])
  {
  }

  /** The row ends with the last number. */
  lemma {:induction false} WithEllipsesLast(arr: seq<int>, prev: int)
    requires arr != []
    ensures var r := WithEllipses(arr, prev);
      r != [] && r[|r| - 1] == Num(arr[|arr| - 1])
    decreases |arr|
  {
    WithEllipsesUnfold(arr, prev);
    if |arr| > 1 {
      WithEllipsesLast(arr[1..], arr[0]);
    }
  }

  /** How a row starts: "..." and the first number when called for, else the first number. */
  lemma WithEllipsesStart(arr: seq<int>, prev: int)
    requires arr != []
    ensures var r := WithEllipses(arr, prev);
      if prev != 0 && arr[0] - prev > 1 then |r| >= 2 && r[0] == Ellipsis && r[1] == Num(arr[0])
      else r[0] == Num(arr[0])
  {
    WithEllipsesUnfold(arr, prev);
  }

  /** Putting a lead before a justified row keeps it justified, provided a "..." opening the
      row comes before a number more than one above the lead's. */
  lemma JustifiedPrepend(head: seq<PageEntry>, rest: seq<PageEntry>, p: int)
    requires head == [Num(p)] || head == [Ellipsis, Num(p)]
    requires EllipsesJustified(rest)
    requires rest != [] && rest[0] == Ellipsis ==> |rest| > 1 && rest[1].Num? && rest[1].n - p > 1
    ensures EllipsesJustified(head + rest)
  {
    var r := head + rest;
    forall i | 0 < i < |r| && r[i] == Ellipsis
      ensures i + 1 < |r| && r[i - 1].Num? && r[i + 1].Num? && r[i + 1].n - r[i - 1].n > 1
    {
      var j := i - |head|;
      assert r[i] == rest[j];
      if j == 0 {
        assert r[i - 1] == Num(p) && r[i + 1] == rest[1];
      } else {
        assert r[i - 1] == rest[j - 1] && r[i + 1] == rest[j + 1];
      }
    }
  }

  /** Putting a lead before a row without hidden gaps keeps it so, provided a number opening
      the row is at most one above the lead's. */
  lemma NoGapPrepend(head: seq<PageEntry>, rest: seq<PageEntry>, p: int)
    requires head == [Num(p)] || head == [Ellipsis, Num(p)]
    requires NoHiddenGap(rest)
    requires rest != [] && rest[0].Num? ==> rest[0].n - p <= 1
    ensures NoHiddenGap(head + rest)
  {
    var r := head + rest;
    forall i | 0 <= i < |r| - 1 && r[i].Num? && r[i + 1].Num?
      ensures r[i + 1].n - r[i].n <= 1
    {
      if i >= |head| {
        assert r[i] == rest[i - |head|] && r[i + 1] == rest[i - |head| + 1];
      } else {
        assert r[i] == Num(p) && r[i + 1] == rest[0];
      }
    }
  }

  /** For ascending positive numbers, every "..." stands between numbers more than one apart. */
  lemma {:induction false} EllipsesAreJustified(arr: seq<int>, prev: int)
    requires AllPositive(arr) && StrictlyIncreasing(arr)
    requires 0 <= prev && (arr != [] ==> prev < arr[0])
    ensures EllipsesJustified(WithEllipses(arr, prev))
    decreases |arr|
  {
    if arr != [] {
      var p := arr[0];
      var rest := WithEllipses(arr[1..], p);
      WithEllipsesUnfold(arr, prev);
      EllipsesAreJustified(arr[1..], p);
      if arr[1..] != [] {
        WithEllipsesStart(arr[1..], p);
        assert arr[1..][0] == arr[1] && p > 0;
      }
      JustifiedPrepend(Lead(arr, prev), rest, p);
    }
  }

  /** For ascending positive numbers, numbers more than one apart are never side by side. */
  lemma {:induction false} NoGapIsHidden(arr: seq<int>, prev: int)
    requires AllPositive(arr) && StrictlyIncreasing(arr)
    requires 0 <= prev && (arr != [] ==> prev < arr[0])
    ensures NoHiddenGap(WithEllipses(arr, prev))
    decreases |arr|
  {
    if arr != [] {
      var p := arr[0];
      var rest := WithEllipses(arr[1..], p);
      WithEllipsesUnfold(arr, prev);
      NoGapIsHidden(arr[1..], p);
      if arr[1..] != [] {
        WithEllipsesStart(arr[1..], p);
        assert arr[1..][0] == arr[1] && p > 0;
      }
      NoGapPrepend(Lead(arr, prev), rest, p);
    }
  }

  /** The distinct, ascending page numbers shown: the first page, the last page, and the
      current page with `Delta` neighbours on each side, clipped to `[1, total]`. */
  function ShownNumbers(current: int, total: int): (arr: seq<int>)
    ensures StrictlyIncreasing(arr)
    ensures forall y :: y in arr <==>
      y == 1 || y == total || ((if current - Delta > 1 then current - Delta else 1) <= y
                               && y <= (if total < current + Delta then total else current + Delta))
  {
    var lo := if current - Delta > 1 then current - Delta else 1;
    var hi := if total < current + Delta then total else current + Delta;
    SortedDistinct([1, total] + Range(lo, hi))
  }

  /** `visiblePages(current, total)` */
  function VisiblePages(current: int, total: int): (r: seq<PageEntry>)
    ensures Numbers(r) == ShownNumbers(current, total)
  {
    WithEllipses(ShownNumbers(current, total), 0)
  }

  lemma ShownNumbersBounds(current: int, total: int)
    requires total >= 1
    ensures var arr := ShownNumbers(current, total);
      && arr != [] && arr[0] == 1 && arr[|arr| - 1] == total
      && AllPositive(arr)
      && (forall y :: y in arr ==> 1 <= y <= total)
  {
    var arr := ShownNumbers(current, total);
    assert 1 in arr && total in arr;
    IncreasingEnds(arr);
    assert arr[0] in arr && arr[|arr| - 1] in arr;
    assert forall i :: 0 <= i < |arr| ==> arr[i] in arr;
  }

  /** A strictly increasing sequence lies between its first and its last element. */
  lemma IncreasingEnds(arr: seq<int>)
    requires StrictlyIncreasing(arr) && arr != []
    ensures forall i :: 0 <= i < |arr| ==> arr[0] <= arr[i] <= arr[|arr| - 1]
  {
    forall i | 0 <= i < |arr|
      ensures arr[0] <= arr[i] <= arr[|arr| - 1]
    {
      if 0 < i { assert arr[0] < arr[i]; }
      if i < |arr| - 1 { assert arr[i] < arr[|arr| - 1]; }
    }
  }

  /** For at least one page, the row starts with page 1 and ends with page `total`, its
      numbers ascend strictly and are each the first or last page or within `Delta` of the
      current one, and "..." appears exactly where numbers are skipped. */
  lemma VisiblePagesShape(current: int, total: int)
    requires total >= 1
    ensures var r := VisiblePages(current, total);
      && r != []
      && r[0] == Num(1)
      && r[|r| - 1] == Num(total)
      && StrictlyIncreasing(Numbers(r))
      && (forall y :: y in Numbers(r) ==> 1 <= y <= total)
      && (forall y :: y in Numbers(r) ==>
            y == 1 || y == total || y == current - 1 || y == current || y == current + 1)
      && EllipsesJustified(r)
      && NoHiddenGap(r)
  {
    var arr := ShownNumbers(current, total);
    ShownNumbersBounds(current, total);
    WithEllipsesUnfold(arr, 0);
    WithEllipsesLast(arr, 0);
    EllipsesAreJustified(arr, 0);
    NoGapIsHidden(arr, 0);
  }

  /** When the current page exists, it and its neighbours (clipped to `[1, total]`) are shown. */
  lemma VisiblePagesShowCurrent(current: int, total: int)
    requires 1 <= current <= total
    ensures var ns := Numbers(VisiblePages(current, total));
      && current in ns
      && (if current - 1 > 1 then current - 1 else 1) in ns
      && (if current + 1 < total then current + 1 else total) in ns
  {
  }

  /** The controls under the grid: none for a single page; otherwise Prev (off on the first
      page), the row of page buttons, and Next (off on the last page). */
  datatype Controls = Controls(prevDisabled: bool, entries: seq<PageEntry>, nextDisabled: bool)

  function PaginationView(page: int, totalPages: int): (r: Option<Controls>)
    ensures r.None? <==> totalPages <= 1
    ensures r.Some? ==> r.value.prevDisabled == (page == 1) && r.value.nextDisabled == (page == totalPages)
    ensures r.Some? ==> Numbers(r.value.entries) == ShownNumbers(page, totalPages)
  {
    if totalPages <= 1 then None
    else Some(Controls(page == 1, VisiblePages(page, totalPages), page == totalPages))
  }

  /** With a page inside `[1, totalPages]`, a button that is not disabled moves to another
      page inside the range, and a disabled one would not have moved. */
  lemma EnabledButtonsMove(page: int, totalPages: int)
    requires 1 <= page <= totalPages && totalPages > 1
    ensures var c := PaginationView(page, totalPages).value;
      && (!c.prevDisabled <==> Prev(page) != page)
      && (!c.nextDisabled <==> Next(page, totalPages) != page)
      && 1 <= Prev(page) && Next(page, totalPages) <= totalPages
  {
  }

  lemma {:induction false} IncreasingWithin(xs: seq<int>, a: int, b: int)
    requires StrictlyIncreasing(xs)
    requires forall i :: 0 <= i < |xs| ==> a <= xs[i] <= b
    ensures |xs| <= if b - a + 1 < 0 then 0 else b - a + 1
    decreases |xs|
  {
    if xs != [] {
      IncreasingWithin(xs[1..], xs[0] + 1, b);
    }
  }

  /** The numbers strictly between the first and the last lie in the current page's window. */
  lemma InteriorInWindow(current: int, total: int)
    requires total >= 1
    ensures var arr := ShownNumbers(current, total);
      forall i :: 0 < i < |arr| - 1 ==>
        (if current - Delta > 1 then current - Delta else 1) <= arr[i]
        && arr[i] <= (if total < current + Delta then total else current + Delta)
  {
    var arr := ShownNumbers(current, total);
    ShownNumbersBounds(current, total);
    forall i | 0 < i < |arr| - 1
      ensures (if current - Delta > 1 then current - Delta else 1) <= arr[i]
      ensures arr[i] <= (if total < current + Delta then total else current + Delta)
    {
      assert arr[0] < arr[i] < arr[|arr| - 1];
      assert arr[i] in arr;
    }
  }

  /** A strictly increasing row whose inner numbers lie in `[lo, hi]` has at most `hi - lo + 1`
      of them, and consecutive ones when there are three in a window of three. */
  lemma InteriorCount(arr: seq<int>, lo: int, hi: int)
    requires StrictlyIncreasing(arr) && |arr| >= 2
    requires forall i :: 0 < i < |arr| - 1 ==> lo <= arr[i] <= hi
    ensures |arr| - 2 <= if hi - lo + 1 < 0 then 0 else hi - lo + 1
    ensures |arr| == 5 && hi - lo <= 2 ==> arr[2] == arr[1] + 1 && arr[3] == arr[2] + 1
  {
    var mid := arr[1..|arr| - 1];
    assert forall i :: 0 <= i < |mid| ==> mid[i] == arr[i + 1];
    IncreasingWithin(mid, lo, hi);
    if |arr| == 5 {
      assert lo <= arr[1] < arr[2] < arr[3] <= hi;
    }
  }

  /** At most five numbers: the first and last page and three around the current one; when
      all five show, the middle three are consecutive. */
  lemma ShownNumbersCount(current: int, total: int)
    requires total >= 1
    ensures var arr := ShownNumbers(current, total);
      && |arr| <= 5
      && (|arr| == 5 ==> arr[2] == arr[1] + 1 && arr[3] == arr[2] + 1)
  {
    var arr := ShownNumbers(current, total);
    ShownNumbersBounds(current, total);
    InteriorInWindow(current, total);
    if |arr| >= 2 {
      InteriorCount(arr, if current - Delta > 1 then current - Delta else 1,
                    if total < current + Delta then total else current + Delta);
    }
  }

  /** At most seven entries: five numbers and the two ellipses around the middle three. */
  lemma VisiblePagesLength(current: int, total: int)
    requires total >= 1
    ensures |Numbers(VisiblePages(current, total))| <= 5
    ensures |VisiblePages(current, total)| <= 7
  {
    var arr := ShownNumbers(current, total);
    ShownNumbersBounds(current, total);
    ShownNumbersCount(current, total);
    if |arr| == 5 {
      WithEllipsesUnfold(arr, 0);
      WithEllipsesUnfold(arr[1..], arr[0]);
      WithEllipsesUnfold(arr[2..], arr[1]);
      WithEllipsesUnfold(arr[3..], arr[2]);
      WithEllipsesUnfold(arr[4..], arr[3]);
      assert arr[1..][1..] == arr[2..] && arr[2..][1..] == arr[3..];
      assert arr[3..][1..] == arr[4..] && arr[4..][1..] == [];
      assert |Lead(arr[2..], arr[1])| == 1 && |Lead(arr[3..], arr[2])| == 1;
    }
  }
}

=== FILE: pdf_viewer.dfy ===
/** The viewer's URL rewriting and file-type flags (components/pdf-viewer.tsx). A Google Drive
    link is turned into the embeddable `/preview` form of the same file. */
module PdfViewer {
  import opened Wrappers
  import opened Strings

  const DriveHost := "drive.google.com"
  const PreviewPrefix := "https://" + DriveHost + ViewMarker
  const PreviewSuffix := "/preview"
  const ViewMarker := "/file/d/"

  /** A character of a file id: `[a-zA-Z0-9-_]`. */
  predicate IdChar(c: char) {
    ('a' <= c <= 'z') || ('A' <= c <= 'Z') || ('0' <= c <= '9') || c == '-' || c == '_'
  }

  predicate AllIdChars(s: string) {
    forall i :: 0 <= i < |s| ==> IdChar(s[i])
  }

  /** The two id patterns: `/file/d/<id>` and `[?&]id=<id>`. */
  datatype Pattern = ViewLink | OpenLink

  /** Where the id starts, relative to the start of a match. */
  function IdOffset(p: Pattern): (r: nat)
    ensures p.ViewLink? ==> r == |ViewMarker|
    ensures p.OpenLink? ==> r == |"?id="|
  {
    if p.ViewLink? then 8 else 4
  }

  /** `p` matches `url` at `i`: its fixed text is there and an id character follows. */
  predicate MatchAt(p: Pattern, url: string, i: int) {
    0 <= i && i + IdOffset(p) < |url| && IdChar(url[i + IdOffset(p)]) &&
    match p
    case ViewLink => url[i..i + 8] == ViewMarker
    case OpenLink => (url[i] == '?' || url[i] == '&') && url[i + 1..i + 4] == "id="
  }

  /** Every character of `s` from `a` up to `b` is an id character. */
  predicate IdCharsIn(s: string, a: int, b: int)
    requires 0 <= a <= b <= |s|
  {
    forall j :: a <= j < b ==> IdChar(s[j])
  }

  /** The length of the run of id characters starting at `k`: the greedy `+`. */
  function IdRun(s: string, k: nat): (r: nat)
    requires k <= |s|
    ensures k + r <= |s|
    ensures IdCharsIn(s, k, k + r)
    ensures k + r == |s| || !IdChar(s[k + r])
    decreases |s| - k
  {
    if k < |s| && IdChar(s[k]) then 1 + IdRun(s, k + 1) else 0
  }

  /** A run is determined by where it starts: any maximal run of id characters is the one
      `IdRun` finds. */
  lemma {:induction false} IdRunUnique(s: string, k: nat, n: nat)
    requires k + n <= |s|
    requires IdCharsIn(s, k, k + n)
    requires k + n == |s| || !IdChar(s[k + n])
    ensures IdRun(s, k) == n
    decreases n
  {
    if n > 0 {
      assert IdChar(s[k]);
      IdRunUnique(s, k + 1, n - 1);
    }
  }

  /** The leftmost match of `p` in `url` at or after `from`, as a regular expression
      search reports it. */
  function FirstMatch(p: Pattern, url: string, from: nat): (r: Option<nat>)
    ensures r.Some? ==> from <= r.value && MatchAt(p, url, r.value)
    ensures forall j :: from <= j && (r.None? || j < r.value) ==> !MatchAt(p, url, j)
    decreases |url| - from
  {
    if from >= |url| then None
    else if MatchAt(p, url, from) then Some(from)
    else FirstMatch(p, url, from + 1)
  }

  /** The leftmost match is where `p` first matches: a match with none before it. */
  lemma {:induction false} FirstMatchIs(p: Pattern, url: string, from: nat, k: nat)
    requires from <= k && MatchAt(p, url, k)
    requires forall j :: from <= j < k ==> !MatchAt(p, url, j)
    ensures FirstMatch(p, url, from) == Some(k)
    decreases k - from
  {
    if from < k {
      FirstMatchIs(p, url, from + 1, k);
    }
  }

  /** `i` is the leftmost match of `p` in `url`: it matches and nothing before it does. */
  predicate Leftmost(p: Pattern, url: string, i: int) {
    MatchAt(p, url, i) && forall j :: 0 <= j < i ==> !MatchAt(p, url, j)
  }

  /** `id` is the whole run of id characters that starts at `k` in `url`. */
  predicate RunAt(url: string, k: int, id: string) {
    0 <= k && k + |id| <= |url| && url[k..k + |id|] == id
    && (k + |id| == |url| || !IdChar(url[k + |id|]))
  }

  /** The id captured by the leftmost match of `p`: the whole run of id characters after it. */
  function Capture(p: Pattern, url: string): (r: Option<string>)
    ensures r.Some? <==> exists i :: MatchAt(p, url, i)
    ensures r.Some? ==> |r.value| > 0 && AllIdChars(r.value)
    ensures forall i :: Leftmost(p, url, i) ==> r.Some? && RunAt(url, i + IdOffset(p), r.value)
  {
    var m := FirstMatch(p, url, 0);
    if m.None? then
      assert forall i :: !MatchAt(p, url, i);
      None
    else
      var k := m.value + IdOffset(p);
      LeftmostCapture(p, url, m.value);
      Some(url[k..k + IdRun(url, k)])
  }

  /** There is at most one leftmost match. */
  lemma LeftmostUnique(p: Pattern, url: string, m: int, i: int)
    requires Leftmost(p, url, m) && Leftmost(p, url, i)
    ensures i == m
  {
  }

  /** The greedy run at `k` is a run of id characters that cannot be extended. */
  lemma IdRunIsRun(url: string, k: nat)
    requires k <= |url|
    ensures AllIdChars(url[k..k + IdRun(url, k)]) && RunAt(url, k, url[k..k + IdRun(url, k)])
  {
    var id := url[k..k + IdRun(url, k)];
    assert forall i :: 0 <= i < |id| ==> id[i] == url[k + i];
  }

  /** What the leftmost match at `m` captures: a non-empty run of id characters, the whole
      run after the leftmost match. */
  lemma LeftmostCapture(p: Pattern, url: string, m: nat)
    requires Leftmost(p, url, m)
    ensures var k := m + IdOffset(p); var id := url[k..k + IdRun(url, k)];
      |id| > 0 && AllIdChars(id) && forall i :: Leftmost(p, url, i) ==> RunAt(url, i + IdOffset(p), id)
  {
    var k := m + IdOffset(p);
    IdRunIsRun(url, k);
    forall i | Leftmost(p, url, i)
      ensures i == m
    {
      LeftmostUnique(p, url, m, i);
    }
  }

  /** The file id: an `id=` parameter wins over a `/file/d/` path, which is used only when
      there is no `id=` parameter. */
  function ExtractId(url: string): (r: Option<string>)
    ensures r.Some? <==> Capture(OpenLink, url).Some? || Capture(ViewLink, url).Some?
    ensures Capture(OpenLink, url).Some? ==> r == Capture(OpenLink, url)
    ensures Capture(OpenLink, url).None? ==> r == Capture(ViewLink, url)
  {
    if Capture(OpenLink, url).Some? then Capture(OpenLink, url) else Capture(ViewLink, url)
  }

  /** `convertGoogleDriveUrl` */
  function ConvertGoogleDriveUrl(url: string): (r: string)
    ensures !Includes(url, DriveHost) ==> r == url
    ensures ExtractId(url).None? ==> r == url
    ensures Includes(url, DriveHost) && ExtractId(url).Some? ==>
      r == PreviewPrefix + ExtractId(url).value + PreviewSuffix
  {
    if Includes(url, DriveHost) then
      match ExtractId(url)
      case Some(id) => PreviewPrefix + id + PreviewSuffix
      case None => url
    else url
  }

  /** `s` holds neither `?` nor `&`, so no `id=` parameter can match in it. */
  predicate NoQueryMarks(s: string) {
    forall i :: 0 <= i < |s| ==> s[i] != '?' && s[i] != '&'
  }

  lemma NoQueryMarksConcat(a: string, b: string)
    requires NoQueryMarks(a) && NoQueryMarks(b)
    ensures NoQueryMarks(a + b)
  {
    forall i | 0 <= i < |a + b|
      ensures (a + b)[i] != '?' && (a + b)[i] != '&'
    {
      if i >= |a| {
        assert (a + b)[i] == b[i - |a|];
      }
    }
  }

  /** The preview prefix holds no `?` or `&`, and its only `f` is the one of `/file/d/`. */
  lemma PreviewPrefixChars()
    ensures NoQueryMarks(PreviewPrefix) && NoQueryMarks(PreviewSuffix)
    ensures forall i :: 0 <= i < |PreviewPrefix| && PreviewPrefix[i] == 'f' ==> i == 25
  {
  }

  /** A preview URL has no `id=` parameter. */
  lemma PreviewHasNoOpenLink(id: string)
    requires AllIdChars(id)
    ensures Capture(OpenLink, PreviewPrefix + id + PreviewSuffix).None?
  {
    PreviewPrefixChars();
    assert NoQueryMarks(id);
    NoQueryMarksConcat(PreviewPrefix, id);
    NoQueryMarksConcat(PreviewPrefix + id, PreviewSuffix);
  }

  /** Nothing that starts with the preview prefix has a `/file/d/` before the prefix's own. */
  lemma NoEarlierViewLink(u: string)
    requires PreviewPrefix <= u
    ensures forall j :: 0 <= j < 24 ==> !MatchAt(ViewLink, u, j)
  {
    PreviewPrefixChars();
    forall j | 0 <= j < 24
      ensures !MatchAt(ViewLink, u, j)
    {
      assert u[j + 1] == PreviewPrefix[j + 1] != 'f';
      if j + 8 <= |u| {
        assert u[j..j + 8][1] == u[j + 1];
      }
    }
  }

  /** In a URL that starts with the preview prefix and an id character, the first
      `/file/d/` is the prefix's own. */
  lemma PreviewViewLinkAt24(u: string)
    requires PreviewPrefix <= u && |u| > |PreviewPrefix| && IdChar(u[|PreviewPrefix|])
    ensures FirstMatch(ViewLink, u, 0) == Some(24)
  {
    assert u[24..32] == PreviewPrefix[24..32] == ViewMarker;
    assert MatchAt(ViewLink, u, 24);
    NoEarlierViewLink(u);
    FirstMatchIs(ViewLink, u, 0, 24);
  }

  /** The preview URL of a file id reads its id back. */
  lemma PreviewExtractsItsId(id: string)
    requires |id| > 0 && AllIdChars(id)
    ensures ExtractId(PreviewPrefix + id + PreviewSuffix) == Some(id)
  {
    var u := PreviewPrefix + id + PreviewSuffix;
    var n := |PreviewPrefix|;
    PreviewHasNoOpenLink(id);
    assert u[n] == id[0];
    assert PreviewPrefix <= u;
    PreviewViewLinkAt24(u);
    assert u[n + |id|] == '/';
    assert forall j :: n <= j < n + |id| ==> u[j] == id[j - n];
    IdRunUnique(u, n, |id|);
    assert u[n..n + |id|] == id;
  }

  /** A preview URL is a Drive URL. */
  lemma PreviewIsDriveUrl(id: string)
    ensures Includes(PreviewPrefix + id + PreviewSuffix, DriveHost)
  {
    var u := PreviewPrefix + id + PreviewSuffix;
    assert u[8..24] == PreviewPrefix[8..24];
    assert PreviewPrefix[8..24] == DriveHost;
    assert OccursAt(DriveHost, u, 8);
  }

  /** Converting is idempotent: a preview URL is left as it is. */
  lemma ConvertIdempotent(url: string)
    ensures ConvertGoogleDriveUrl(ConvertGoogleDriveUrl(url)) == ConvertGoogleDriveUrl(url)
  {
    var r := ConvertGoogleDriveUrl(url);
    if r != url {
      var id := ExtractId(url).value;
      PreviewExtractsItsId(id);
      PreviewIsDriveUrl(id);
    }
  }

  const Application := "application/"
  const OpenXml := Application + "vnd.openxmlformats-officedocument."
  const PdfMime := Application + "pdf"
  const WordMimes := {OpenXml + "wordprocessingml.document", Application + "msword"}
  const PowerPointMimes := {OpenXml + "presentationml.presentation", Application + "vnd.ms-powerpoint"}
  const ExcelMimes := {OpenXml + "spreadsheetml.sheet", Application + "vnd.ms-excel"}

  /** The viewer's five type flags. */
  datatype Flags = Flags(isImage: bool, isPdf: bool, isDocx: bool, isPowerPoint: bool, isExcel: bool)

  function TypeFlags(mimeType: string): (f: Flags)
    ensures f.isImage <==> IsPrefix("image/", mimeType)
    ensures f.isPdf <==> mimeType == PdfMime
    ensures f.isDocx <==> mimeType in WordMimes
    ensures f.isPowerPoint <==> mimeType in PowerPointMimes
    ensures f.isExcel <==> mimeType in ExcelMimes
  {
    Flags(IsPrefix("image/", mimeType), mimeType == PdfMime,
          mimeType in WordMimes, mimeType in PowerPointMimes, mimeType in ExcelMimes)
  }

  /** How many flags are set. */
  function FlagCount(f: Flags): (n: nat)
    ensures n <= 5
  {
    (if f.isImage then 1 else 0) + (if f.isPdf then 1 else 0) + (if f.isDocx then 1 else 0) +
    (if f.isPowerPoint then 1 else 0) + (if f.isExcel then 1 else 0)
  }

  /** No file is of two kinds: at most one flag is set, and exactly one for the listed types. */
  lemma FlagsExclusive(mimeType: string)
    ensures FlagCount(TypeFlags(mimeType)) <= 1
    ensures FlagCount(TypeFlags(mimeType)) == 1 <==>
      IsPrefix("image/", mimeType) || mimeType == PdfMime ||
      mimeType in WordMimes + PowerPointMimes + ExcelMimes
  {
    if IsPrefix("image/", mimeType) {
      assert mimeType[..6][0] == 'i';
    }
  }
}

=== FILE: sorting.dfy ===
/** Insertion sort by a comparator, and the name order used in place of
    `String.prototype.localeCompare`. */
module Sorting {

  /** `le` is a total preorder: every pair is comparable and `le` is transitive. */
  ghost predicate TotalPreorder<T(!new)>(le: (T, T) -> bool) {
    && (forall x, y :: le(x, y) || le(y, x))
    && (forall x, y, z :: le(x, y) && le(y, z) ==> le(x, z))
  }

  ghost predicate SortedBy<T>(le: (T, T) -> bool, xs: seq<T>) {
    forall i, j :: 0 <= i < j < |xs| ==> le(xs[i], xs[j])
  }

  /** Inserts `x` before the first element it sorts no later than, so before any equal ones. */
  function Insert<T(!new)>(x: T, xs: seq<T>, le: (T, T) -> bool): (r: seq<T>)
    requires TotalPreorder(le)
    requires SortedBy(le, xs)
    ensures SortedBy(le, r)
    ensures multiset(r) == multiset(xs) + multiset{x}
  {
    if xs == [] || le(x, xs[0]) then
      [x] + xs
    else
      var rest := Insert(x, xs[1..], le);
      assert multiset(xs) == multiset{xs[0]} + multiset(xs[1..]) by {
        assert xs == [xs[0]] + xs[1..];
      }
      HeadBoundsInsert(x, xs, rest, le);
      [xs[0]] + rest
  }

  /** The head of a sorted sequence sorts no later than anything in its tail or than an
      element that does not sort before it. */
  lemma HeadBoundsInsert<T(!new)>(x: T, xs: seq<T>, rest: seq<T>, le: (T, T) -> bool)
    requires TotalPreorder(le) && SortedBy(le, xs)
    requires xs != [] && !le(x, xs[0])
    requires multiset(rest) == multiset(xs[1..]) + multiset{x}
    ensures forall k :: 0 <= k < |rest| ==> le(xs[0], rest[k])
  {
    forall k | 0 <= k < |rest|
      ensures le(xs[0], rest[k])
    {
      assert rest[k] in multiset(rest);
      if rest[k] != x {
        assert rest[k] in multiset(xs[1..]);
        var j :| 0 <= j < |xs[1..]| && xs[1..][j] == rest[k];
        assert xs[j + 1] == rest[k];
      }
    }
  }

  /** `[...xs].sort(cmp)`: the elements of `xs` rearranged into `le` order. */
  function SortBy<T(!new)>(xs: seq<T>, le: (T, T) -> bool): (r: seq<T>)
    requires TotalPreorder(le)
    ensures SortedBy(le, r)
    ensures multiset(r) == multiset(xs)
  {
    if xs == [] then []
    else
      assert xs == [xs[0]] + xs[1..];
      Insert(xs[0], SortBy(xs[1..], le), le)
  }

  /** Lexicographic order on character codes; a name is never after itself. */
  predicate NameLe(a: string, b: string) {
    if a == [] then true
    else if b == [] then false
    else if a[0] != b[0] then a[0] < b[0]
    else NameLe(a[1..], b[1..])
  }

  lemma {:induction false} NameLeTotal(a: string, b: string)
    ensures NameLe(a, b) || NameLe(b, a)
  {
    if a != [] && b != [] && a[0] == b[0] {
      NameLeTotal(a[1..], b[1..]);
    }
  }

  lemma {:induction false} NameLeTransitive(a: string, b: string, c: string)
    requires NameLe(a, b) && NameLe(b, c)
    ensures NameLe(a, c)
  {
    if a != [] && b != [] && c != [] && a[0] == b[0] && b[0] == c[0] {
      NameLeTransitive(a[1..], b[1..], c[1..]);
    }
  }

  lemma {:induction false} NameLeAntisymmetric(a: string, b: string)
    requires NameLe(a, b) && NameLe(b, a)
    ensures a == b
  {
    if a != [] && b != [] {
      NameLeAntisymmetric(a[1..], b[1..]);
      assert a == [a[0]] + a[1..] && b == [b[0]] + b[1..];
    }
  }
}

=== FILE: strings.dfy ===
/** String helpers standing in for the JavaScript built-ins the core relies on:
    `includes`, `startsWith`, `toLowerCase`, `trim` and `join`. */
module Strings {

  /** `s.startsWith(p)` */
  predicate IsPrefix(p: string, s: string) {
    |p| <= |s| && s[..|p|] == p
  }

  /** `needle` occurs in `hay` at position `i`. */
  predicate OccursAt(needle: string, hay: string, i: int) {
    0 <= i && i + |needle| <= |hay| && hay[i..i + |needle|] == needle
  }

  /** `hay.includes(needle)`, computed by scanning `hay` from the left. */
  function Includes(hay: string, needle: string): (r: bool)
    ensures r <==> exists i :: OccursAt(needle, hay, i)
    decreases |hay|
  {
    if IsPrefix(needle, hay) then
      assert OccursAt(needle, hay, 0);
      true
    else if |hay| <= |needle| then
      NoRoomNoOccurrence(needle, hay);
      false
    else
      var rest := Includes(hay[1..], needle);
      ShiftOccurrence(needle, hay);
      rest
  }

  lemma NoRoomNoOccurrence(needle: string, hay: string)
    requires |hay| <= |needle| && !IsPrefix(needle, hay)
    ensures forall i :: !OccursAt(needle, hay, i)
  {
  }

  /** An occurrence in `hay` past position 0 is an occurrence in `hay[1..]`, and back. */
  lemma ShiftOccurrence(needle: string, hay: string)
    requires |hay| > 0 && !IsPrefix(needle, hay)
    ensures (exists i :: OccursAt(needle, hay, i)) <==> (exists i :: OccursAt(needle, hay[1..], i))
  {
    if i :| OccursAt(needle, hay, i) {
      assert i != 0;
      assert hay[1..][i - 1..i - 1 + |needle|] == hay[i..i + |needle|];
      assert OccursAt(needle, hay[1..], i - 1);
    }
    if i :| OccursAt(needle, hay[1..], i) {
      assert hay[1..][i..i + |needle|] == hay[i + 1..i + 1 + |needle|];
      assert OccursAt(needle, hay, i + 1);
    }
  }

  /** `toLowerCase` restricted to the ASCII letters. */
  function LowerChar(c: char): (r: char)
    ensures 'A' <= c <= 'Z' ==> 'a' <= r <= 'z'
    ensures !('A' <= c <= 'Z') ==> r == c
  {
    if 'A' <= c <= 'Z' then (c as int + 32) as char else c
  }

  function ToLower(s: string): (r: string)
    ensures |r| == |s|
    ensures forall i :: 0 <= i < |s| ==> r[i] == LowerChar(s[i])
  {
    if s == [] then [] else [LowerChar(s[0])] + ToLower(s[1..])
  }

  /** Lower-casing works character by character, so it distributes over concatenation. */
  lemma {:induction false} ToLowerAppend(a: string, b: string)
    ensures ToLower(a + b) == ToLower(a) + ToLower(b)
    decreases |a|
  {
    if a == [] {
      assert a + b == b;
    } else {
      assert (a + b)[0] == a[0] && (a + b)[1..] == a[1..] + b;
      ToLowerAppend(a[1..], b);
    }
  }

  /** Lower-casing twice is lower-casing once. */
  lemma ToLowerIdempotent(s: string)
    ensures ToLower(ToLower(s)) == ToLower(s)
  {
    assert forall i :: 0 <= i < |s| ==> LowerChar(LowerChar(s[i])) == LowerChar(s[i]);
  }

  /** The characters `String.prototype.trim` removes: white space and line terminators. */
  predicate IsSpace(c: char) {
    var n := c as int;
    n == 0x20 || (0x09 <= n <= 0x0D) || n == 0xA0 || n == 0x1680 || (0x2000 <= n <= 0x200A)
    || n == 0x2028 || n == 0x2029 || n == 0x202F || n == 0x205F || n == 0x3000 || n == 0xFEFF
  }

  function TrimStart(s: string): (r: string)
    ensures |r| <= |s| && r == s[|s| - |r|..]
    ensures forall i :: 0 <= i < |s| - |r| ==> IsSpace(s[i])
    ensures r != [] ==> !IsSpace(r[0])
  {
    if s != [] && IsSpace(s[0]) then TrimStart(s[1..]) else s
  }

  function TrimEnd(s: string): (r: string)
    ensures |r| <= |s| && r == s[..|r|]
    ensures forall i :: |r| <= i < |s| ==> IsSpace(s[i])
    ensures r != [] ==> !IsSpace(r[|r| - 1])
  {
    if s != [] && IsSpace(s[|s| - 1]) then TrimEnd(s[..|s| - 1]) else s
  }

  /** `r` is the infix of `s` starting at `a`, and everything around it is space. */
  predicate SpaceAround(s: string, r: string, a: int) {
    0 <= a && a + |r| <= |s| && r == s[a..a + |r|]
    && (forall i :: 0 <= i < a ==> IsSpace(s[i]))
    && (forall i :: a + |r| <= i < |s| ==> IsSpace(s[i]))
  }

  /** `s.trim()`: the infix of `s` left after dropping leading and trailing spaces. */
  function Trim(s: string): (r: string)
    ensures exists a :: SpaceAround(s, r, a)
    ensures r != [] ==> !IsSpace(r[0]) && !IsSpace(r[|r| - 1])
    ensures r == [] <==> forall i :: 0 <= i < |s| ==> IsSpace(s[i])
  {
    var t := TrimStart(s);
    var r := TrimEnd(t);
    var a := |s| - |t|;
    assert SpaceAround(s, r, a);
    r
  }

  /** A lower-cased character is white space exactly when the original is. */
  lemma LowerKeepsSpace(c: char)
    ensures IsSpace(LowerChar(c)) <==> IsSpace(c)
  {
  }

  lemma {:induction false} TrimStartLower(s: string)
    ensures TrimStart(ToLower(s)) == ToLower(TrimStart(s))
    decreases |s|
  {
    if s != [] {
      LowerKeepsSpace(s[0]);
      assert ToLower(s)[1..] == ToLower(s[1..]);
      TrimStartLower(s[1..]);
    }
  }

  lemma {:induction false} TrimEndLower(s: string)
    ensures TrimEnd(ToLower(s)) == ToLower(TrimEnd(s))
    decreases |s|
  {
    if s != [] {
      var init := s[..|s| - 1];
      LowerKeepsSpace(s[|s| - 1]);
      assert s == init + [s[|s| - 1]];
      ToLowerAppend(init, [s[|s| - 1]]);
      assert ToLower(s)[..|s| - 1] == ToLower(init);
      TrimEndLower(init);
    }
  }

  /** Trimming and lower-casing commute: lower-casing neither makes nor removes white space. */
  lemma TrimLower(s: string)
    ensures Trim(ToLower(s)) == ToLower(Trim(s))
  {
    TrimStartLower(s);
    TrimEndLower(TrimStart(s));
  }

  /** Trimming twice is trimming once. */
  lemma TrimIdempotent(s: string)
    ensures Trim(Trim(s)) == Trim(s)
  {
    var r := Trim(s);
    assert TrimStart(r) == r;
  }

  /** `xs.join(sep)` */
  function Join(xs: seq<string>, sep: string): (r: string)
    ensures xs == [] ==> r == []
    ensures |xs| == 1 ==> r == xs[0]
  {
    if xs == [] then []
    else if |xs| == 1 then xs[0]
    else xs[0] + sep + Join(xs[1..], sep)
  }

  /** Joining one more element appends the separator and the element. */
  lemma {:induction false} JoinSnoc(xs: seq<string>, x: string, sep: string)
    ensures Join(xs + [x], sep) == if xs == [] then x else Join(xs, sep) + sep + x
  {
    if xs == [] {
      assert xs + [x] == [x];
    } else if |xs| == 1 {
      assert xs + [x] == [xs[0], x];
      assert [xs[0], x][1..] == [x];
    } else {
      assert (xs + [x])[1..] == xs[1..] + [x];
      JoinSnoc(xs[1..], x, sep);
    }
  }

  function Reverse<T>(xs: seq<T>): (r: seq<T>)
    ensures |r| == |xs|
    ensures forall i :: 0 <= i < |xs| ==> r[i] == xs[|xs| - 1 - i]
  {
    if xs == [] then [] else Reverse(xs[1..]) + [xs[0]]
  }
}

=== FILE: wrappers.dfy ===
/** Option and Result datatypes used for the absent values and the thrown errors of the
    listing core. */
module Wrappers {

  datatype Option<+T> = None | Some(value: T)

  /** The outcome of an operation that can throw: a value or the error it threw. */
  datatype Result<+R, +E> = Ok(value: R) | Err(error: E)
}
